=== FILE: README.md ===
# kloudformation-runner: a Dafny model of the runner's decision logic

kloudformation-runner is a command-line tool that deploys, deletes, lists and
inspects CloudFormation stacks, uploads code zips and invokes Lambda functions.
This project models, in Dafny, the pure logic that sits between its argument
vector and the AWS SDK:

- **the argument tokenizer** of `Deploy.kt` (module `Options`): the fold
  `Options.from`, which turns tokens into `MonoOption`s (command words and
  `--switches`) and `BinaryOption`s (`-flag value`). A `WaitingOption` is the
  transient state in between. The module also covers the `binaryOptions` and
  `monoOptions` views and the `get`, `notRequired` and `has` lookups;
- **the rules in `main`** (module `Deploy`): the command default, the
  `-region` requirement, the flags each command reads, `region:name` stack
  specs, and comma-separated stack lists. `Dispatch` returns the request that
  `main` would go on to make, or the message of the `IllegalArgumentException`
  it throws while reading its arguments;
- **the stack reconciliation observer** of `StackBuilder.kt` (module
  `StackBuilder`):
  - the stack status sets;
  - the progress-line format;
  - the resource diff of `printResourceUpdates`;
  - the poll loop `waitFor`, as a recursion over a finite sequence of
    observations;
  - the error classification of `handle` and the not-found rule of `stackWith`;
  - `createOrUpdate`, `deleteStack` and `listStacks`, as returned lines and an
    ending;
- **stack lookup** of `StackFinder.kt` (module `StackFinder`): matching,
  filtering by status, choosing the stack with the least name (a stable sort,
  so ties go to the first one listed), and rendering its outputs as `key=value`
  lines;
- **`OutputInfo`** (module `Outputs`): a Kotlin `LinkedHashMap` modelled as a
  list of entries with distinct keys, with `plus` proved to be the immutable
  map update. The module also holds `toMap` and the `-output` file format.

Two further modules hold the supporting definitions:

- `Wrappers`: `Option` (a Kotlin nullable) and `Result` (a value or an
  exception);
- `Strings`: `startsWith`, `indexOf`, `substringBefore`/`substringAfter`,
  `split`, `joinToString` and `compareTo`, stated over `seq<char>`.

Remote calls become inputs:

- a `DescribeReply` for each `describeStacks` call;
- a `Poll` (that reply plus the `describeStackResources` list) for each
  iteration of `waitFor`;
- an optional `ServiceError` thrown by a create, update or delete request.

Printing becomes returned lines, `System.exit` becomes an exit code in the
result, and `Thread.sleep` becomes moving on to the next poll. When the polls
run out while the stack is still in progress, the outcome is `Exhausted`. The
regular expressions that `invoke` applies to function names and qualifiers are
predicate parameters. The file system is a parameter too: whether a path
exists (`File.exists()`, true for a file or a directory), and the text
`java.io.File` shows for a path (it normalises separators, so `a//t.json`
shows as `a/t.json`).

A few behaviours of the code are easy to misread. The model states each one as
the code has it:

- Within one poll, `waitFor` prints the resource lines before the stack's own
  line (`StackBuilder.kt:159-163`, stated by `StackBuilder.PollLines`).
- A resource line is printed whenever a resource is new, changed status, or
  got a new non-null reason (`StackBuilder.kt:143-149`), not only when it
  reaches a terminal state.
- Option names keep their leading dash: `["-x","-y"]` gives
  `BinaryOption("-x","-y")` (`Deploy.kt:35`).
- A `-qualifier` that fails its pattern does not abort `invoke`. It is
  silently dropped (`Deploy.RejectedQualifierIsIgnored`), because the lookup
  is `notRequired` (`Deploy.kt:75`), whose first argument is only a name, not
  an error message.
- Resources that appear in the poll right after a poll with no resources are
  never announced (`StackBuilder.ResourcesAfterEmptyPollAreSilent`), because
  the diff runs only when the previous list is non-empty
  (`StackBuilder.kt:159`).

## Model

All source paths are under `src/main/kotlin/io/hexlabs/kloudformation/runner/`.

| member | source | states |
|---|---|---|
| Options.IsBinaryShape | src/main/kotlin/io/hexlabs/kloudformation/runner/Deploy.kt:27 | a token is a flag exactly when its first character is `-` and its second, if any, is not `-` |
| Options.Step | src/main/kotlin/io/hexlabs/kloudformation/runner/Deploy.kt:34-38 | a waiting flag takes the token as its value and is appended as a `BinaryOption`; otherwise a flag-shaped token starts waiting and appends nothing, and any other token is appended as a `MonoOption` |
| Options.Fold | src/main/kotlin/io/hexlabs/kloudformation/runner/Deploy.kt:33-39 | the fold keeps the options it started with as a prefix and adds at most one option per token |
| Options.From | src/main/kotlin/io/hexlabs/kloudformation/runner/Deploy.kt:28-41 | the options are empty exactly when the argument list is empty |
| Options.FoldIsScan | src/main/kotlin/io/hexlabs/kloudformation/runner/Deploy.kt:33-39 | from any state, the fold appends exactly what the pairwise reading (flag plus next token, else a word) predicts: the fold equals an independent reference definition |
| Options.FromIsScan | src/main/kotlin/io/hexlabs/kloudformation/runner/Deploy.kt:28-41 | `Options.from` is the pairwise reading, except that an otherwise empty result becomes `[MonoOption(last token)]` |
| Options.ScanFlag | src/main/kotlin/io/hexlabs/kloudformation/runner/Deploy.kt:35-36 | a flag and the token after it become one `BinaryOption`, and reading goes on after both |
| Options.ScanWord | src/main/kotlin/io/hexlabs/kloudformation/runner/Deploy.kt:37-38 | a non-flag token becomes one `MonoOption` |
| Options.ScanEmpty | src/main/kotlin/io/hexlabs/kloudformation/runner/Deploy.kt:40 | the empty-result fallback fires exactly for an empty list or a single flag token |
| Options.FromLoneFlag | src/main/kotlin/io/hexlabs/kloudformation/runner/Deploy.kt:40 | `["-x"]` gives `[MonoOption("-x")]` |
| Options.FlagValueNeverReread | src/main/kotlin/io/hexlabs/kloudformation/runner/Deploy.kt:35 | the token after a leading flag is that flag's value even when it looks like a flag |
| Options.FlagFollowedByFlag | src/main/kotlin/io/hexlabs/kloudformation/runner/Deploy.kt:35-36 | `["-x","-y"]` gives exactly `[BinaryOption("-x","-y")]` |
| Options.DoubleDashIsMono | src/main/kotlin/io/hexlabs/kloudformation/runner/Deploy.kt:37 | a token starting with `--` in first position is a `MonoOption` |
| Options.ScanWellFormed | src/main/kotlin/io/hexlabs/kloudformation/runner/Deploy.kt:33-39 | every `BinaryOption` has a flag-shaped name, every `MonoOption` a non-flag name, and nothing is left waiting |
| Options.ScanTokens | src/main/kotlin/io/hexlabs/kloudformation/runner/Deploy.kt:33-39 | the options' tokens, followed by the dangling flag if any, are the argument list: order kept, each `BinaryOption` consumes two consecutive tokens, and only a trailing flag is lost |
| Options.ScanOfTokens | src/main/kotlin/io/hexlabs/kloudformation/runner/Deploy.kt:33-39 | reading back the tokens of well-formed options gives the same options (round trip) |
| Options.NoWaitingOption | src/main/kotlin/io/hexlabs/kloudformation/runner/Deploy.kt:32-40 | no `WaitingOption` is ever in the result |
| Options.OptionFromToken | src/main/kotlin/io/hexlabs/kloudformation/runner/Deploy.kt:33-40 | every option is named after one of the argument tokens |
| Options.AtMostOneOptionPerToken | src/main/kotlin/io/hexlabs/kloudformation/runner/Deploy.kt:33-40 | there are no more options than tokens |
| Options.FromIdempotent | src/main/kotlin/io/hexlabs/kloudformation/runner/Deploy.kt:28-41 | tokenizing the token form of the options again gives the same options |
| Options.BinaryOptions | src/main/kotlin/io/hexlabs/kloudformation/runner/Deploy.kt:24 | the view holds exactly the `BinaryOption`s of the list, and only those |
| Options.MonoOptions | src/main/kotlin/io/hexlabs/kloudformation/runner/Deploy.kt:25 | the view holds exactly the `MonoOption`s of the list |
| Options.MonoOptionsHead | src/main/kotlin/io/hexlabs/kloudformation/runner/Deploy.kt:25 | the first element of `monoOptions` is the first `MonoOption` of the list |
| Options.ViewsDistribute | src/main/kotlin/io/hexlabs/kloudformation/runner/Deploy.kt:24-25 | both views distribute over concatenation, so they keep relative order |
| Options.BinaryDistribute | src/main/kotlin/io/hexlabs/kloudformation/runner/Deploy.kt:24 | `binaryOptions` distributes over concatenation |
| Options.MonoDistribute | src/main/kotlin/io/hexlabs/kloudformation/runner/Deploy.kt:25 | `monoOptions` distributes over concatenation |
| Options.ViewsPartition | src/main/kotlin/io/hexlabs/kloudformation/runner/Deploy.kt:24-25 | without waiting options, the two views' sizes add up to the list's size |
| Options.FlagsOnly | src/main/kotlin/io/hexlabs/kloudformation/runner/Deploy.kt:24-25 | a list holding only `BinaryOption`s is its own `binaryOptions` and has no `monoOptions` |
| Options.Find | src/main/kotlin/io/hexlabs/kloudformation/runner/Deploy.kt:16-18 | null exactly when nothing matches; otherwise the first match |
| Options.GetWhere | src/main/kotlin/io/hexlabs/kloudformation/runner/Deploy.kt:16-18 | fails with the given message exactly when nothing matches; otherwise the first match |
| Options.Get | src/main/kotlin/io/hexlabs/kloudformation/runner/Deploy.kt:19 | fails with "Expected <name> argument" exactly when no option has that name; otherwise the first option with that name |
| Options.NotRequired | src/main/kotlin/io/hexlabs/kloudformation/runner/Deploy.kt:21 | null exactly when no option has that name; otherwise the first option that has it |
| Options.Has | src/main/kotlin/io/hexlabs/kloudformation/runner/Deploy.kt:20 | holds exactly when some option has that name |
| Options.GetAgreesWithNotRequired | src/main/kotlin/io/hexlabs/kloudformation/runner/Deploy.kt:16-21 | `get` succeeds exactly when `notRequired` is non-null, with the same option |
| Deploy.Command | src/main/kotlin/io/hexlabs/kloudformation/runner/Deploy.kt:56 | "deploy" when there is no `MonoOption`; otherwise the name of the first `MonoOption` |
| Deploy.CommandOfNoArguments | src/main/kotlin/io/hexlabs/kloudformation/runner/Deploy.kt:55-56 | no arguments means command "deploy" |
| Deploy.CommandIsLeadingWord | src/main/kotlin/io/hexlabs/kloudformation/runner/Deploy.kt:55-56 | a leading non-flag token is the command |
| Deploy.CommandOfLoneFlag | src/main/kotlin/io/hexlabs/kloudformation/runner/Deploy.kt:55-56 | a single flag token becomes the command, through the empty-result fallback |
| Deploy.SwitchBeforeCommand | src/main/kotlin/io/hexlabs/kloudformation/runner/Deploy.kt:55-56 | `--force delete` names command "--force", not "delete" |
| Deploy.LeadingCommand | src/main/kotlin/io/hexlabs/kloudformation/runner/Deploy.kt:56 | a `MonoOption` in first place is the command |
| Deploy.FlagValue | src/main/kotlin/io/hexlabs/kloudformation/runner/Deploy.kt:21 | `notRequired(name)?.value`: null exactly when no flag has that name; otherwise the value of the first flag that has it |
| Deploy.ValueWhere | src/main/kotlin/io/hexlabs/kloudformation/runner/Deploy.kt:21 | `notRequired(_, compare)?.value`: null exactly when no flag satisfies `compare`; otherwise the value of the first that does |
| Deploy.GetIsFlagValue | src/main/kotlin/io/hexlabs/kloudformation/runner/Deploy.kt:16-21 | `get(name)` throws "Expected <name> argument" exactly when `notRequired(name)` is null, and otherwise finds the same flag |
| Deploy.FirstFlagValue | src/main/kotlin/io/hexlabs/kloudformation/runner/Deploy.kt:21 | a flag in first place is the one a lookup of its name finds |
| Deploy.AbsentFlag | src/main/kotlin/io/hexlabs/kloudformation/runner/Deploy.kt:21 | a name no flag carries is looked up as null |
| Deploy.RegionNeedsToken | src/main/kotlin/io/hexlabs/kloudformation/runner/Deploy.kt:55-57 | without a `-region` token there is no `-region` flag for `get` to find |
| Deploy.ParseStackSpec | src/main/kotlin/io/hexlabs/kloudformation/runner/Deploy.kt:83-84 | with a `:`, region, `:` and name make up the spec, and the region has no `:`; without one, it is the default region and the whole spec |
| Deploy.ParseStackSpecs | src/main/kotlin/io/hexlabs/kloudformation/runner/Deploy.kt:81-84 | one stack reference per entry, in order |
| Deploy.StackSpecRoundTrip | src/main/kotlin/io/hexlabs/kloudformation/runner/Deploy.kt:83-84 | `region:name` parses back to that region and name whenever the region has no `:` |
| Deploy.UploadRequest | src/main/kotlin/io/hexlabs/kloudformation/runner/Deploy.kt:62-65 | `-bucket` is required first, then `-location`, each failing with "Expected <flag> argument"; it succeeds exactly when both are present, and then the bucket, location and key are the values of the first `-bucket`, `-location` and `-key` flags, the key absent exactly when there is no `-key` |
| Deploy.InvokeRequest | src/main/kotlin/io/hexlabs/kloudformation/runner/Deploy.kt:69-77 | fails with the pattern message exactly when no `-function-name` has a valid value; otherwise the function name is the first valid one, the type is `-type` or RequestResponse, the log type is "None" exactly when `--disable-logs` is given and "Tail" otherwise, the qualifier is the first valid `-qualifier` (absent when none is valid), and context and payload are the `-context` and `-payload` values |
| Deploy.OutputsRequest | src/main/kotlin/io/hexlabs/kloudformation/runner/Deploy.kt:80-84 | no stacks without `-stacks`; otherwise one parsed spec per comma-separated part, with the command's region as default |
| Deploy.DeployRequest | src/main/kotlin/io/hexlabs/kloudformation/runner/Deploy.kt:87-90 | `-stack-name` is required before `-template`; a template path that does not exist fails with "Could not find file " and the path as `java.io.File` shows it; it succeeds exactly when all three hold, with the stack name, template path and `-output` value of the first such flags |
| Deploy.DeleteRequest | src/main/kotlin/io/hexlabs/kloudformation/runner/Deploy.kt:97-100 | fails exactly when no flag name starts with `-stack-name`; otherwise the names, none holding a comma, join back with commas to that first flag's value; force holds exactly when `--force` is given |
| Deploy.UnrecognisedMessage | src/main/kotlin/io/hexlabs/kloudformation/runner/Deploy.kt:117 | the message for an unknown command is "Command <command> not recognised try deploy or delete", pinned by its prefix, suffix and length |
| Deploy.Route | src/main/kotlin/io/hexlabs/kloudformation/runner/Deploy.kt:55-117 | `-region` is required before any command is looked at; with a region, each command is served by its request: `list`, `uploadZip`, `invoke`, `outputs`, `deploy` with the `-output` value, `delete`, and `Unrecognised` for any other command; a successful request carries the region and answers the chosen command |
| Deploy.Dispatch | src/main/kotlin/io/hexlabs/kloudformation/runner/Deploy.kt:54-57 | without a `-region` flag after tokenizing (in particular with no `-region` token at all, or one that ends up a flag's value or dangling) the argument list fails with "Expected -region argument"; with a region, the tokenized options are served command by command as `Route` states |
| Deploy.WellFormedQualifierIsUsed | src/main/kotlin/io/hexlabs/kloudformation/runner/Deploy.kt:74-75 | a qualifier that matches its pattern reaches the invoke request |
| Deploy.RejectedQualifierIsIgnored | src/main/kotlin/io/hexlabs/kloudformation/runner/Deploy.kt:74-75 | a qualifier that fails its pattern is dropped without an error |
| Deploy.QualifierLookup | src/main/kotlin/io/hexlabs/kloudformation/runner/Deploy.kt:75 | after `-region` and `-function-name`, a `-qualifier` is found exactly when its value matches the pattern |
| Deploy.InvokeRoute | src/main/kotlin/io/hexlabs/kloudformation/runner/Deploy.kt:69-78 | `invoke -region r -function-name f -qualifier q` with a valid `f` becomes the invoke request with defaults for every other field |
| Deploy.RouteToInvoke | src/main/kotlin/io/hexlabs/kloudformation/runner/Deploy.kt:57-69 | with a region, the `invoke` command is answered by the invoke request |
| Deploy.InvokeLookups | src/main/kotlin/io/hexlabs/kloudformation/runner/Deploy.kt:57-77 | the lookups `invoke` makes in those three flags: the region, the function name, and no `-type`, `-context` or `-payload` |
| Deploy.InvokeTokens | src/main/kotlin/io/hexlabs/kloudformation/runner/Deploy.kt:28-41 | those seven tokens become the word `invoke` and three flags |
| Deploy.InvokeOptions | src/main/kotlin/io/hexlabs/kloudformation/runner/Deploy.kt:24-25 | the views of those options: three flags, one word, command `invoke` |
| Outputs.Lookup | src/main/kotlin/io/hexlabs/kloudformation/runner/OutputInfo.kt:3 | null exactly for keys not in the map; otherwise a stored entry |
| Outputs.AsMap | src/main/kotlin/io/hexlabs/kloudformation/runner/OutputInfo.kt:3 | the entries read as a Dafny map agree with lookup on every key |
| Outputs.Default | src/main/kotlin/io/hexlabs/kloudformation/runner/OutputInfo.kt:3 | the default `OutputInfo` has no keys |
| Outputs.Plus | src/main/kotlin/io/hexlabs/kloudformation/runner/OutputInfo.kt:4 | `k` maps to `v`; every other key keeps its value; the key set becomes the old one plus `k`; the size grows by one exactly when `k` was new; a new key goes last and existing keys keep their places |
| Outputs.PlusIsMapUpdate | src/main/kotlin/io/hexlabs/kloudformation/runner/OutputInfo.kt:4 | `plus` is the map update `m[k := v]` |
| Outputs.PlusOverwrites | src/main/kotlin/io/hexlabs/kloudformation/runner/OutputInfo.kt:4 | adding a key twice keeps only the second value |
| Outputs.FromPairs | src/main/kotlin/io/hexlabs/kloudformation/runner/StackBuilder.kt:126 | `toMap` has exactly the keys of the pairs |
| Outputs.FromPairsLastWins | src/main/kotlin/io/hexlabs/kloudformation/runner/StackBuilder.kt:126 | the value kept for a key is the one in its last pair |
| Outputs.FromDistinctPairs | src/main/kotlin/io/hexlabs/kloudformation/runner/StackBuilder.kt:126 | pairs with distinct keys are kept as given, in order |
| Outputs.OutputLines | src/main/kotlin/io/hexlabs/kloudformation/runner/Deploy.kt:93 | one `key=value` line per entry, in map order |
| Outputs.KeyValueTextLines | src/main/kotlin/io/hexlabs/kloudformation/runner/StackFinder.kt:23 | the `key=value` lines joined with line breaks split back into those lines, when there is at least one pair and no key or value holds a line break |
| Outputs.OutputFileTextLines | src/main/kotlin/io/hexlabs/kloudformation/runner/Deploy.kt:93 | the `-output` file text reads back, line by line, as one `key=value` line per output in map order, under the same conditions |
| StackBuilder.StatusNameInjective | src/main/kotlin/io/hexlabs/kloudformation/runner/StackBuilder.kt:162 | comparing status strings is comparing statuses |
| StackBuilder.StatusSets | src/main/kotlin/io/hexlabs/kloudformation/runner/StackBuilder.kt:26-43 | nine terminal statuses; both success sets are terminal and disjoint |
| StackBuilder.StackWith | src/main/kotlin/io/hexlabs/kloudformation/runner/StackBuilder.kt:19-24 | rethrows exactly the errors whose message is not "Stack with id <name> does not exist"; null exactly for an empty reply or that message; otherwise the first stack |
| StackBuilder.Handle | src/main/kotlin/io/hexlabs/kloudformation/runner/StackBuilder.kt:62-78 | no exit exactly for code ValidationError with message "No updates are to be performed."; every other error prints its text on standard error and exits 1 |
| StackBuilder.ResourceLine | src/main/kotlin/io/hexlabs/kloudformation/runner/StackBuilder.kt:142 | a resource's line is the progress line with its type, and a missing type prints as "" (two spaces between the id and "Status became") |
| StackBuilder.ProgressLine | src/main/kotlin/io/hexlabs/kloudformation/runner/StackBuilder.kt:139 | the line starts "<id> <type> Status became <status>", has " because <reason>" right after that exactly when there is a reason, and ends with " (<physicalId>)" when there is one; its length accounts for exactly those parts |
| StackBuilder.FindById | src/main/kotlin/io/hexlabs/kloudformation/runner/StackBuilder.kt:144 | null exactly when no resource has the id; otherwise the first that has it |
| StackBuilder.Changed | src/main/kotlin/io/hexlabs/kloudformation/runner/StackBuilder.kt:144-148 | a resource with an id no previous resource has is always reported; a resource already present unchanged is never reported |
| StackBuilder.ChangedResources | src/main/kotlin/io/hexlabs/kloudformation/runner/StackBuilder.kt:143-149 | at most one reported resource per current resource |
| StackBuilder.ChangedMembers | src/main/kotlin/io/hexlabs/kloudformation/runner/StackBuilder.kt:143-149 | a current resource is reported exactly when it is new, changed status, or has a new non-null reason; nothing is reported exactly when no resource qualifies |
| StackBuilder.ChangedDistribute | src/main/kotlin/io/hexlabs/kloudformation/runner/StackBuilder.kt:143 | the diff of a concatenation is the concatenation of the diffs, so reported resources keep current-list order |
| StackBuilder.Removed | src/main/kotlin/io/hexlabs/kloudformation/runner/StackBuilder.kt:150 | at most one removal per previous resource |
| StackBuilder.RemovedMembers | src/main/kotlin/io/hexlabs/kloudformation/runner/StackBuilder.kt:150 | the removed resources are exactly the previous ones whose id is absent now |
| StackBuilder.RemovedDistribute | src/main/kotlin/io/hexlabs/kloudformation/runner/StackBuilder.kt:150 | the removals of a concatenation are the concatenation of the removals, so they keep previous-list order |
| StackBuilder.ResourceUpdates | src/main/kotlin/io/hexlabs/kloudformation/runner/StackBuilder.kt:141-152 | first the line of each reported resource, in current-list order, then one "<id> has been removed" line per removed resource, in previous-list order; so at most one line per resource in either list |
| StackBuilder.ChangedIffNotReported | src/main/kotlin/io/hexlabs/kloudformation/runner/StackBuilder.kt:144-148 | with unique ids, a resource is reported exactly when it was not already seen in the previous poll, that is when no previous resource with its id showed its status with the same reason or now a cleared one; seen does not mean printed, since the first poll's resources are never printed |
| StackBuilder.IdenticalListsAreSilent | src/main/kotlin/io/hexlabs/kloudformation/runner/StackBuilder.kt:141-152 | an unchanged resource list prints nothing |
| StackBuilder.NothingRemoved | src/main/kotlin/io/hexlabs/kloudformation/runner/StackBuilder.kt:150-151 | when every previous resource is still present, no removal line is printed |
| StackBuilder.ClearedReasonIsSilent | src/main/kotlin/io/hexlabs/kloudformation/runner/StackBuilder.kt:146 | a reason that merely becomes null is not reported |
| StackBuilder.NewReasonIsReported | src/main/kotlin/io/hexlabs/kloudformation/runner/StackBuilder.kt:146-147 | a new non-null reason alone is reported, as that resource's line |
| StackBuilder.RemovalLinesComeLast | src/main/kotlin/io/hexlabs/kloudformation/runner/StackBuilder.kt:143-151 | the lines start with exactly the reported resources' lines; the rest read "<id> has been removed", in previous-list order, one per previous resource whose id is gone |
| StackBuilder.StackLine | src/main/kotlin/io/hexlabs/kloudformation/runner/StackBuilder.kt:163 | the stack line starts "<name> AWS::CloudFormation::Stack Status became <status>", holds " because <reason>" right after that when there is a reason, and ends with " (<stack id>)", with nothing else in it (its length is the sum of those parts) |
| StackBuilder.StackChanged | src/main/kotlin/io/hexlabs/kloudformation/runner/StackBuilder.kt:162 | the first poll always prints the stack line; a poll whose status and reason repeat the previous one never does |
| StackBuilder.PollLines | src/main/kotlin/io/hexlabs/kloudformation/runner/StackBuilder.kt:159-163 | exactly the resource lines (only when the previous poll had resources) followed by the stack line (only when status or reason changed): the resource lines form the prefix and the stack line comes last |
| StackBuilder.FirstPollPrintsStackLine | src/main/kotlin/io/hexlabs/kloudformation/runner/StackBuilder.kt:154-163 | the first poll prints exactly the stack line |
| StackBuilder.StackLineIffChanged | src/main/kotlin/io/hexlabs/kloudformation/runner/StackBuilder.kt:162-163 | the stack line is due exactly when the status or reason differs from the previous poll |
| StackBuilder.RepeatedPollIsSilent | src/main/kotlin/io/hexlabs/kloudformation/runner/StackBuilder.kt:159-163 | a poll identical to the previous one prints nothing |
| StackBuilder.ResourcesAfterEmptyPollAreSilent | src/main/kotlin/io/hexlabs/kloudformation/runner/StackBuilder.kt:159-161 | after a poll with no resources, new resources are not announced |
| StackBuilder.WaitFor | src/main/kotlin/io/hexlabs/kloudformation/runner/StackBuilder.kt:154-171 | runs out exactly when every poll finds the stack in progress; a final stack is terminal, with success exactly when its status is in the success set; a vanished stack succeeds exactly when DELETE_COMPLETE is in the set |
| StackBuilder.WaitForStep | src/main/kotlin/io/hexlabs/kloudformation/runner/StackBuilder.kt:154-171 | one poll: a describe error is thrown with no lines; a vanished stack finishes with no lines; a terminal stack finishes with that poll's lines; otherwise the poll's lines are followed by the lines of the rest of the loop, which starts from this poll's status, reason and resources |
| StackBuilder.RepeatedPollChangesNothing | src/main/kotlin/io/hexlabs/kloudformation/runner/StackBuilder.kt:154-171 | with unique resource ids, seeing the same poll twice in a row prints and decides exactly what seeing it once does |
| StackBuilder.WaitForStopsAtFirstStop | src/main/kotlin/io/hexlabs/kloudformation/runner/StackBuilder.kt:164-168 | the loop ends at the first poll that does not continue, with that poll's verdict or error, and ignores every later poll |
| StackBuilder.DeployVerdict | src/main/kotlin/io/hexlabs/kloudformation/runner/StackBuilder.kt:164-170 | a deploy succeeds exactly when the stack ends in CREATE_COMPLETE or UPDATE_COMPLETE |
| StackBuilder.DeleteVerdict | src/main/kotlin/io/hexlabs/kloudformation/runner/StackBuilder.kt:164-170 | a delete succeeds exactly when the stack vanished or ended in DELETE_COMPLETE |
| StackBuilder.RollbackCompleteFailsDeploy | src/main/kotlin/io/hexlabs/kloudformation/runner/StackBuilder.kt:164-165 | ROLLBACK_COMPLETE on the first poll ends a deploy as a failure after one stack line |
| StackBuilder.Banner | src/main/kotlin/io/hexlabs/kloudformation/runner/StackBuilder.kt:111-113 | a blank line, "#################### Stack <title> #######################", a blank line (the same shape opens `deleteStack` at StackBuilder.kt:89-91) |
| StackBuilder.OutputPrintLines | src/main/kotlin/io/hexlabs/kloudformation/runner/StackBuilder.kt:122-124 | one "<key>: <value>" line per output, in order |
| StackBuilder.HandleEnding | src/main/kotlin/io/hexlabs/kloudformation/runner/StackBuilder.kt:62-78 | `handle` returns normally exactly for the "No updates are to be performed." validation error, and otherwise exits with code 1 |
| StackBuilder.Handled | src/main/kotlin/io/hexlabs/kloudformation/runner/StackBuilder.kt:62-78 | the lines so far are kept as a prefix and followed by what `handle` prints; the ending is the one `handle` gives |
| StackBuilder.CreateOrUpdate | src/main/kotlin/io/hexlabs/kloudformation/runner/StackBuilder.kt:110-135 | the deploy banner comes first; an error from the existence check or the request ends as `handle` decides; otherwise "Updating" or "Creating" is announced and the lines of `waitFor` follow, and its outcome decides the rest: still polling; `handle`'s lines and ending for a thrown error; "Stack Update Failure" on stderr and exit 1 for a failed stack; "Stack Update Complete", one "<key>: <value>" line per output and `toMap` of the outputs exactly when the stack ended in CREATE_COMPLETE or UPDATE_COMPLETE |
| StackBuilder.Deploying | src/main/kotlin/io/hexlabs/kloudformation/runner/StackBuilder.kt:114-133 | once the request is in: the banner, the announced action, the lines of `waitFor`, then the closing lines and the ending its outcome decides, with outputs only on success |
| StackBuilder.AfterDeploy | src/main/kotlin/io/hexlabs/kloudformation/runner/StackBuilder.kt:117-133 | the lines so far, the lines of `waitFor`, then per outcome: nothing and still polling; `handle`'s lines and ending; the failure printout and exit 1; or the success printout, the output lines and the outputs |
| StackBuilder.NoOpUpdateIsNotFailure | src/main/kotlin/io/hexlabs/kloudformation/runner/StackBuilder.kt:62-69 | an update rejected as "No updates are to be performed." prints the no-change banner and returns normally |
| StackBuilder.UpdateIffStackExists | src/main/kotlin/io/hexlabs/kloudformation/runner/StackBuilder.kt:115-116 | the deploy announces "Updating" exactly when the existence check found the stack, "Creating" otherwise |
| StackBuilder.FailedDeployExits | src/main/kotlin/io/hexlabs/kloudformation/runner/StackBuilder.kt:127-131 | a failed verdict ends the process with code 1 |
| StackBuilder.DeleteStack | src/main/kotlin/io/hexlabs/kloudformation/runner/StackBuilder.kt:88-108 | the delete banner comes first; an error from the request ends as `handle` decides; otherwise "Deleting Stack <name>" is announced and the lines of `waitFor` follow; the delete then prints "Stack Delete Complete" and returns normally exactly when the stack vanished or reached DELETE_COMPLETE, prints "Stack Delete Failure" on stderr and exits 1 on any other final status, or ends as `handle` decides on a thrown error |
| StackBuilder.AfterDelete | src/main/kotlin/io/hexlabs/kloudformation/runner/StackBuilder.kt:94-104 | the lines so far, the lines of `waitFor`, then per outcome: nothing and still polling; `handle`'s lines and ending; the success printout and a normal return; or the failure printout and exit 1 |
| StackBuilder.VanishedStackIsDeleted | src/main/kotlin/io/hexlabs/kloudformation/runner/StackBuilder.kt:170 | a stack gone at the first poll is a successful delete and a failed deploy |
| StackBuilder.ListStacks | src/main/kotlin/io/hexlabs/kloudformation/runner/StackBuilder.kt:79-87 | a blank line, "Stacks in the <region> region", a blank line, then "<name> <status>" per stack in order, then a closing blank line |
| StackBuilder.StackRows | src/main/kotlin/io/hexlabs/kloudformation/runner/StackBuilder.kt:83-85 | one "<name> <status>" row per stack |
| StackFinder.Matching | src/main/kotlin/io/hexlabs/kloudformation/runner/StackFinder.kt:8-12 | a stack matches exactly when its name equals the query or its id contains it |
| StackFinder.ChosenIsUnique | src/main/kotlin/io/hexlabs/kloudformation/runner/StackFinder.kt:21-22 | at most one stack is the first of the stable sort by name |
| StackFinder.SelectFirst | src/main/kotlin/io/hexlabs/kloudformation/runner/StackFinder.kt:21-22 | a first stack that qualifies and sorts no later than the rest's choice is chosen |
| StackFinder.SelectLater | src/main/kotlin/io/hexlabs/kloudformation/runner/StackFinder.kt:21-22 | otherwise the rest's choice stays chosen |
| StackFinder.Select | src/main/kotlin/io/hexlabs/kloudformation/runner/StackFinder.kt:17-22 | nothing is chosen exactly when no stack is an available match; otherwise the chosen one has the least name and is the earliest such |
| StackFinder.ListOutputsFor | src/main/kotlin/io/hexlabs/kloudformation/runner/StackFinder.kt:17-24 | "" when no stack qualifies; otherwise the outputs text of the stack the stable sort puts first |
| StackFinder.UnavailableNeverChosen | src/main/kotlin/io/hexlabs/kloudformation/runner/StackFinder.kt:14-19 | in any list of stacks, a stack outside CREATE_COMPLETE, UPDATE_COMPLETE and UPDATE_ROLLBACK_COMPLETE is never the one chosen, even on an exact match |
| StackFinder.TieGoesToFirst | src/main/kotlin/io/hexlabs/kloudformation/runner/StackFinder.kt:21-22 | an example of the stable sort: in the two-stack list `[a, b]` where both qualify under the same name, `a` wins (the general rule is `Select`'s) |
| Strings.SubstringBefore | src/main/kotlin/io/hexlabs/kloudformation/runner/Deploy.kt:83 | without the delimiter, the whole string; with it, the text before the first occurrence, such that before + delimiter + after is the string |
| Strings.SubstringAfter | src/main/kotlin/io/hexlabs/kloudformation/runner/Deploy.kt:84 | without the delimiter, the whole string |
| Strings.IndexOf | src/main/kotlin/io/hexlabs/kloudformation/runner/Deploy.kt:83 | null exactly when the character is absent; otherwise the position of its first occurrence |
| Strings.Join | src/main/kotlin/io/hexlabs/kloudformation/runner/StackFinder.kt:23 | no parts join to ""; otherwise the text starts with the first part, followed by the separator when there is a second, and its length is the parts' lengths plus one separator between each two |
| Strings.Split | src/main/kotlin/io/hexlabs/kloudformation/runner/Deploy.kt:100 | at least one part, none containing the delimiter |
| Strings.JoinSplit | src/main/kotlin/io/hexlabs/kloudformation/runner/Deploy.kt:100 | joining the parts of a split with the delimiter gives back the string |
| Strings.SplitJoin | src/main/kotlin/io/hexlabs/kloudformation/runner/Deploy.kt:93 | splitting a join of delimiter-free parts gives back the parts |
| Strings.LessEqReflexive | src/main/kotlin/io/hexlabs/kloudformation/runner/StackFinder.kt:21 | string order is reflexive |
| Strings.LessEqTotal | src/main/kotlin/io/hexlabs/kloudformation/runner/StackFinder.kt:21 | any two names are comparable |
| Strings.LessEqTransitive | src/main/kotlin/io/hexlabs/kloudformation/runner/StackFinder.kt:21 | string order is transitive |
| Strings.LessEqAntisymmetric | src/main/kotlin/io/hexlabs/kloudformation/runner/StackFinder.kt:21 | names that sort both ways are equal |

## Left out

- Deploy.Dispatch: `main` builds `StackBuilder(region)` for every command
  before it looks at the command (Deploy.kt:59), and that constructor builds
  the CloudFormation client with `Region.of(region)` (StackBuilder.kt:16).
  The SDK's region check there is outside the model, so a region the SDK
  rejects, such as `-region ""`, is still served here while the source
  throws.
- AWS SDK calls are not modelled. Their replies are inputs: `describeStacks`
  and `describeStackResources` replies, and errors from create, update and
  delete requests. The paginator of `listStacks` is a plain list of stacks.
- An exception thrown by `describeStackResources` inside `waitFor` is not
  modelled. Each poll carries a resource list.
- `Thread.sleep(5000)` and the unbounded recursion of `waitFor` are not
  modelled: the loop consumes a finite sequence of polls. Running out of polls
  is the `Exhausted` or `StillPolling` outcome.
- `System.exit` and printing are not process effects. They are returned exit
  codes and lines.
- The stderr lines before `System.exit(1)` are not interleaved with stdout.
  Each line is marked as `Out` or `Err`, in program order.
- `S3Syncer.kt` (zipping and uploading a directory) is not part of this model:
  it is file-system walking and zip-stream I/O.
- `LambdaInvoker.kt` is not part of this model: it is a thin wrapper over the
  Lambda client, file reads and Base64.
- `generateKey` depends on the clock and a random UUID. A missing `-key`
  is kept as `None` in the `UploadZip` request.
- The regular expressions for function names and qualifiers are not
  interpreted. They are predicate parameters, because regex semantics are out
  of scope. The function-name pattern text is kept verbatim for its error
  message.
- Deploy.DeployRequest: a template path that names a directory passes the
  existence check, as `exists()` at Deploy.kt:90 lets it, and succeeds here;
  the source then fails later in `readText()`, which is file I/O outside the
  model.
- Reading the template, writing the `-output` file and `mkdirs` on its parent
  are I/O. The model keeps the existence check and the path text of
  `java.io.File` as a `Deploy.FileSystem` parameter, and the text the
  `-output` file would receive (`Outputs.OutputFileText`).
- The per-stack loops of `main` are not modelled. These are `outputs` over
  each stack spec and `delete` over each name, with its stdin confirmation
  prompt and its "does not exist" message. The model stops at the parsed list
  of stacks or names.
- `StackFinder.Matching` reads the regular expression `.*<query>.*` as
  substring containment. The two differ for a query holding regex
  metacharacters, which the source does not escape.
- `StackBuilder.StackStatus` lists the 17 named statuses. The SDK's
  `UNKNOWN_TO_SDK_VERSION` is not modelled.
- `StackBuilder.Changed` compares resource statuses as strings. The source
  compares SDK enum values, which agree for every known status.
- `Strings.LessEq` orders characters by code point. Kotlin's `compareTo`
  orders UTF-16 code units; the two differ only outside the Basic
  Multilingual Plane.
- StackBuilder.StatusName: the SDK's `toString` of a status has no contract
  of its own; `StackBuilder.StatusNameInjective` states the property the
  stack-line comparison relies on.
- `Strings.SubstringAfter` states only the missing-delimiter case. The other
  case is stated by `Strings.SubstringBefore`'s contract.
- `OutputInfo`'s immutability (`plus` works through `copy`) holds by
  construction: every Dafny datatype is immutable.

=== FILE: deploy.dfy ===
/** The pure part of `main` in Deploy.kt: choosing the command, reading the
    flags each command needs, splitting `-stacks` and `-stack-name` lists and
    `region:name` specs. The work each command then does (calls to the
    service, file reads and writes, the delete prompt) is not part of this
    module; `Dispatch` stops at the request it would carry out.
 */
module Deploy {
  import opened Wrappers
  import opened Strings
  import O = Options

  const DefaultCommand := "deploy"

  /** `options.monoOptions.firstOrNull()?.name ?: "deploy"`. */
  function Command(options: seq<O.Option>): (r: string)
    ensures (forall i :: 0 <= i < |options| ==> !options[i].MonoOption?) ==> r == DefaultCommand
    ensures (exists i :: 0 <= i < |options| && options[i].MonoOption?) ==>
              exists i :: O.IsFirstMatch(options, (o: O.Option) => o.MonoOption?, i) && r == options[i].name
  {
    var monos := O.MonoOptions(options);
    O.MonoOptionsHead(options);
    if |monos| == 0 then
      DefaultCommand
    else
      assert monos[0] in monos;
      monos[0].name
  }

  lemma CommandOfNoArguments()
    ensures Command(O.From([])) == "deploy"
  {
  }

  /** A first token that is not a flag is the command. */
  lemma CommandIsLeadingWord(args: seq<string>)
    requires |args| > 0 && !O.IsBinary(args[0])
    ensures Command(O.From(args)) == args[0]
  {
    O.FromIsScan(args);
    assert O.From(args)[0] == O.MonoOption(args[0]);
    LeadingCommand(O.From(args));
  }

  /** A word in first place is the command. */
  lemma LeadingCommand(os: seq<O.Option>)
    requires |os| > 0 && os[0].MonoOption?
    ensures Command(os) == os[0].name
  {
    assert O.IsFirstMatch(os, (o: O.Option) => o.MonoOption?, 0);
  }

  /** A lone flag is taken as the command, e.g. `["-x"]` names command "-x". */
  lemma CommandOfLoneFlag(flag: string)
    requires O.IsBinary(flag)
    ensures Command(O.From([flag])) == flag
  {
    O.FromLoneFlag(flag);
    assert O.IsFirstMatch([O.MonoOption(flag)], (o: O.Option) => o.MonoOption?, 0);
  }

  /** A switch before the command word is taken as the command:
      `--force delete` names command "--force". */
  lemma SwitchBeforeCommand()
    ensures Command(O.From(["--force", "delete"])) == "--force"
  {
    assert StartsWith("--force", "--");
    CommandIsLeadingWord(["--force", "delete"]);
  }

  // ---------------------------------------------------------------------
  // `-stacks` entries: `region:name` or `name`
  // ---------------------------------------------------------------------

  datatype StackRef = StackRef(region: string, name: string)

  /** The region is the text before the first ':' (the default region when
      there is none), the name the text after it (the whole spec when there
      is none). */
  function ParseStackSpec(spec: string, defaultRegion: string): (r: StackRef)
    ensures ':' in spec ==> spec == r.region + ":" + r.name && ':' !in r.region
    ensures ':' !in spec ==> r == StackRef(defaultRegion, spec)
  {
    var region := if ':' in spec then SubstringBefore(spec, ':') else defaultRegion;
    StackRef(region, SubstringAfter(spec, ':'))
  }

  function ParseStackSpecs(specs: seq<string>, defaultRegion: string): (r: seq<StackRef>)
    ensures |r| == |specs|
    ensures forall i :: 0 <= i < |specs| ==> r[i] == ParseStackSpec(specs[i], defaultRegion)
  {
    if |specs| == 0 then [] else [ParseStackSpec(specs[0], defaultRegion)] + ParseStackSpecs(specs[1..], defaultRegion)
  }

  /** A spec with a region and a name is read back as that region and name. */
  lemma StackSpecRoundTrip(region: string, name: string, defaultRegion: string)
    requires ':' !in region
    ensures ParseStackSpec(region + ":" + name, defaultRegion) == StackRef(region, name)
  {
    var spec := region + ":" + name;
    assert spec[|region|] == ':';
    var r := ParseStackSpec(spec, defaultRegion);
    assert spec == r.region + ":" + r.name;
    assert r.region == spec[..|region|] == region;
    assert r.name == spec[|region| + 1..] == name;
  }

  // ---------------------------------------------------------------------
  // The request each command makes
  // ---------------------------------------------------------------------

  /** The pattern `-function-name` values must match. */
  const FunctionNamePattern :=
    @"(arn:(aws[a-zA-Z-]*)?:lambda:)?([a-z]{2}(-gov)?-[a-z]+-\d{1}:)?(\d{12}:)?(function:)?([a-zA-Z0-9-_\.]+)(:(\$LATEST|[a-zA-Z0-9-_]+))?"

  /** What `main` goes on to do once the arguments are read. */
  datatype Invocation =
    | ListStacks(region: string)
      /** `key` None: a key is generated from the clock and a random UUID. */
    | UploadZip(region: string, bucket: string, location: string, key: Option<string>)
    | Invoke(region: string, functionName: string, invocationType: string, logType: string,
             qualifier: Option<string>, context: Option<string>, payload: Option<string>)
    | PrintOutputs(region: string, stacks: seq<StackRef>)
    | DeployStack(region: string, stackName: string, template: string, outputFile: Option<string>)
    | DeleteStacks(region: string, stackNames: seq<string>, force: bool)
      /** Reported on standard error as `UnrecognisedMessage(command)`. */
    | Unrecognised(region: string, command: string)

  function UnrecognisedMessage(command: string): (m: string)
    ensures StartsWith(m, "Command " + command)
    ensures |m| == |command| + 44
    ensures m[|m| - 36..] == " not recognised try deploy or delete"
  {
    var head, tail := "Command " + command, " not recognised try deploy or delete";
    assert (head + tail)[..|head|] == head;
    assert (head + tail)[|head|..] == tail;
    head + tail
  }

  /** `binaryOptions` is a list of `BinaryOption`s. */
  predicate AllBinary(binary: seq<O.Option>) {
    forall i :: 0 <= i < |binary| ==> binary[i].BinaryOption?
  }

  /** `v` is the value of the first option satisfying `compare`. */
  ghost predicate FirstValue(binary: seq<O.Option>, compare: O.Option -> bool, v: string)
    requires AllBinary(binary)
  {
    exists i :: O.IsFirstMatch(binary, compare, i) && binary[i].value == v
  }

  /** `notRequired(name)?.value`: the value of the first flag called
      `name`, or null. */
  function FlagValue(binary: seq<O.Option>, name: string): (r: Option<string>)
    requires AllBinary(binary)
    ensures r.None? <==> forall i :: 0 <= i < |binary| ==> binary[i].name != name
    ensures r.Some? ==> FirstValue(binary, (o: O.Option) => o.name == name, r.value)
  {
    match O.NotRequired(binary, name)
    case Some(o) => Some(o.value)
    case None => None
  }

  /** The value of the first option satisfying `compare`, or null. */
  function ValueWhere(binary: seq<O.Option>, compare: O.Option -> bool): (r: Option<string>)
    requires AllBinary(binary)
    ensures r.None? <==> forall i :: 0 <= i < |binary| ==> !compare(binary[i])
    ensures r.Some? ==> FirstValue(binary, compare, r.value)
  {
    match O.Find(binary, compare)
    case Some(o) => Some(o.value)
    case None => None
  }

  /** The `get` operator on a flag name fails exactly when `notRequired`
      finds nothing, and otherwise finds the same flag. */
  lemma GetIsFlagValue(binary: seq<O.Option>, name: string)
    requires AllBinary(binary)
    ensures O.Get(binary, name).Failure? <==> FlagValue(binary, name).None?
    ensures O.Get(binary, name).Failure? ==> O.Get(binary, name).error == "Expected " + name + " argument"
    ensures O.Get(binary, name).Success? ==> Some(O.Get(binary, name).value.value) == FlagValue(binary, name)
  {
    O.GetAgreesWithNotRequired(binary, name);
  }

  /** `uploadZip`: `-bucket` then `-location` are required (`get` fails
      with "Expected <name> argument", see `GetIsFlagValue`), `-key` is
      optional. */
  function UploadRequest(binary: seq<O.Option>, region: string): (r: Result<Invocation, string>)
    requires AllBinary(binary)
    ensures FlagValue(binary, "-bucket").None? ==> r == Failure("Expected -bucket argument")
    ensures FlagValue(binary, "-bucket").Some? && FlagValue(binary, "-location").None? ==>
              r == Failure("Expected -location argument")
    ensures r.Success? <==> FlagValue(binary, "-bucket").Some? && FlagValue(binary, "-location").Some?
    ensures r.Success? ==> r.value.UploadZip? && r.value.region == region
    ensures r.Success? ==> Some(r.value.bucket) == FlagValue(binary, "-bucket")
    ensures r.Success? ==> Some(r.value.location) == FlagValue(binary, "-location")
    ensures r.Success? ==> r.value.key == FlagValue(binary, "-key")
  {
    match (FlagValue(binary, "-bucket"), FlagValue(binary, "-location"))
    case (None, _) => Failure("Expected -bucket argument")
    case (_, None) => Failure("Expected -location argument")
    case (Some(bucket), Some(location)) => Success(UploadZip(region, bucket, location, FlagValue(binary, "-key")))
  }

  /** `-function-name` with a value the name pattern accepts. */
  function FunctionNameFlag(validFunctionName: string -> bool): O.Option -> bool {
    (o: O.Option) => o.name == "-function-name" && o.BinaryOption? && validFunctionName(o.value)
  }

  /** `-qualifier` with a value the qualifier pattern accepts. */
  function QualifierFlag(validQualifier: string -> bool): O.Option -> bool {
    (o: O.Option) => o.name == "-qualifier" && o.BinaryOption? && validQualifier(o.value)
  }

  /** `invoke`: a well-formed `-function-name` is required; the invocation
      type defaults to RequestResponse; `--disable-logs` turns the log tail
      off; a qualifier is used only when it is well formed. */
  function InvokeRequest(binary: seq<O.Option>, mono: seq<O.Option>, region: string,
                         validFunctionName: string -> bool, validQualifier: string -> bool)
    : (r: Result<Invocation, string>)
    requires AllBinary(binary)
    ensures r.Failure? <==>
              forall i :: 0 <= i < |binary| ==> !(binary[i].name == "-function-name" && validFunctionName(binary[i].value))
    ensures r.Failure? ==> r.error == "-function-name must match " + FunctionNamePattern
    ensures r.Success? ==> r.value.Invoke? && r.value.region == region && validFunctionName(r.value.functionName)
    ensures r.Success? ==> Some(r.value.functionName) == ValueWhere(binary, FunctionNameFlag(validFunctionName))
    ensures r.Success? ==>
              r.value.invocationType == FlagValue(binary, "-type").GetOr("RequestResponse")
    ensures r.Success? ==>
              (r.value.logType == "None" <==> exists i :: 0 <= i < |mono| && mono[i].name == "--disable-logs") &&
              (r.value.logType == "None" || r.value.logType == "Tail")
    ensures r.Success? ==> r.value.qualifier == ValueWhere(binary, QualifierFlag(validQualifier))
    ensures r.Success? ==>
              (r.value.qualifier.None? <==>
                 forall i :: 0 <= i < |binary| ==> !(binary[i].name == "-qualifier" && validQualifier(binary[i].value)))
    ensures r.Success? && r.value.qualifier.Some? ==> validQualifier(r.value.qualifier.value)
    ensures r.Success? ==> r.value.context == FlagValue(binary, "-context")
    ensures r.Success? ==> r.value.payload == FlagValue(binary, "-payload")
  {
    var functionName :- O.GetWhere(binary, "-function-name must match " + FunctionNamePattern,
                                   FunctionNameFlag(validFunctionName));
    var invocationType := FlagValue(binary, "-type").GetOr("RequestResponse");
    var logType := if O.Has(mono, "--disable-logs") then "None" else "Tail";
    var qualifier := ValueWhere(binary, QualifierFlag(validQualifier));
    Success(Invoke(region, functionName.value, invocationType, logType, qualifier,
                   FlagValue(binary, "-context"), FlagValue(binary, "-payload")))
  }

  /** `outputs`: one stack reference per comma-separated entry of
      `-stacks`, none when the flag is absent. */
  function OutputsRequest(binary: seq<O.Option>, region: string): (r: Invocation)
    requires AllBinary(binary)
    ensures r.PrintOutputs? && r.region == region
    ensures FlagValue(binary, "-stacks").None? ==> r.stacks == []
    ensures FlagValue(binary, "-stacks").Some? ==>
              var parts := Split(FlagValue(binary, "-stacks").value, ',');
              |r.stacks| == |parts| &&
              forall i :: 0 <= i < |parts| ==> r.stacks[i] == ParseStackSpec(parts[i], region)
  {
    match FlagValue(binary, "-stacks")
    case None => PrintOutputs(region, [])
    case Some(v) => PrintOutputs(region, ParseStackSpecs(Split(v, ','), region))
  }

  /** The file system as `deploy` sees it: whether `File(path).exists()`
      holds (for a file or a directory alike), and the text of
      `File(path)`, which java.io.File normalises (`a//t.json` shows as
      `a/t.json`). */
  datatype FileSystem = FileSystem(pathExists: string -> bool, pathText: string -> string)

  /** `deploy`: `-stack-name` then `-template` are required, and the
      template path must exist. */
  function DeployRequest(binary: seq<O.Option>, region: string, outputFile: Option<string>, files: FileSystem)
    : (r: Result<Invocation, string>)
    requires AllBinary(binary)
    ensures FlagValue(binary, "-stack-name").None? ==> r == Failure("Expected -stack-name argument")
    ensures FlagValue(binary, "-stack-name").Some? && FlagValue(binary, "-template").None? ==>
              r == Failure("Expected -template argument")
    ensures FlagValue(binary, "-stack-name").Some? && FlagValue(binary, "-template").Some? &&
            !files.pathExists(FlagValue(binary, "-template").value) ==>
              r == Failure("Could not find file " + files.pathText(FlagValue(binary, "-template").value))
    ensures r.Success? <==>
              FlagValue(binary, "-stack-name").Some? && FlagValue(binary, "-template").Some? &&
              files.pathExists(FlagValue(binary, "-template").value)
    ensures r.Success? ==> r.value.DeployStack? && r.value.region == region && r.value.outputFile == outputFile
    ensures r.Success? ==> Some(r.value.stackName) == FlagValue(binary, "-stack-name")
    ensures r.Success? ==> Some(r.value.template) == FlagValue(binary, "-template")
  {
    match (FlagValue(binary, "-stack-name"), FlagValue(binary, "-template"))
    case (None, _) => Failure("Expected -stack-name argument")
    case (_, None) => Failure("Expected -template argument")
    case (Some(stackName), Some(template)) =>
      if !files.pathExists(template) then Failure("Could not find file " + files.pathText(template))
      else Success(DeployStack(region, stackName, template, outputFile))
  }

  /** The `get` operator used by `delete`: any flag whose name starts with
      `-stack-name`, so `-stack-names` and `-stack-name` both qualify. */
  function StackNameFlag(): O.Option -> bool {
    (o: O.Option) => StartsWith(o.name, "-stack-name")
  }

  /** `delete`: the first `-stack-name...` flag holds a comma-separated
      list of stack names; `--force` skips the confirmation prompt. */
  function DeleteRequest(binary: seq<O.Option>, mono: seq<O.Option>, region: string)
    : (r: Result<Invocation, string>)
    requires AllBinary(binary)
    ensures r.Failure? <==> forall i :: 0 <= i < |binary| ==> !StartsWith(binary[i].name, "-stack-name")
    ensures r.Failure? ==> r.error == "Expected -stack-name or -stack-names argument"
    ensures r.Success? ==> r.value.DeleteStacks? && r.value.region == region && |r.value.stackNames| >= 1
    ensures r.Success? ==>
              exists i :: O.IsFirstMatch(binary, StackNameFlag(), i) &&
                          Join(r.value.stackNames, ",") == binary[i].value
    ensures r.Success? ==> forall k :: 0 <= k < |r.value.stackNames| ==> ',' !in r.value.stackNames[k]
    ensures r.Success? ==>
              (r.value.force <==> exists i :: 0 <= i < |mono| && mono[i].name == "--force")
  {
    var names :- O.GetWhere(binary, "Expected -stack-name or -stack-names argument", StackNameFlag());
    JoinSplit(names.value, ',');
    Success(DeleteStacks(region, Split(names.value, ','), O.Has(mono, "--force")))
  }

  // ---------------------------------------------------------------------
  // Dispatch
  // ---------------------------------------------------------------------

  /** The command word an invocation answers. */
  function CommandOf(inv: Invocation): string {
    match inv
    case ListStacks(_) => "list"
    case UploadZip(_, _, _, _) => "uploadZip"
    case Invoke(_, _, _, _, _, _, _) => "invoke"
    case PrintOutputs(_, _) => "outputs"
    case DeployStack(_, _, _, _) => "deploy"
    case DeleteStacks(_, _, _) => "delete"
    case Unrecognised(_, command) => command
  }

  /** The command words `main` knows. */
  predicate IsKnownCommand(command: string) {
    command == "list" || command == "uploadZip" || command == "invoke" ||
    command == "outputs" || command == "deploy" || command == "delete"
  }

  /** `main` from the parsed options up to the point where it calls into
      the service. `-region` is required before the command is even looked
      at; `-output` is read for every command and used by `deploy`. A
      failure is the message of the IllegalArgumentException `main`
      throws. */
  function Route(options: seq<O.Option>, validFunctionName: string -> bool, validQualifier: string -> bool,
                 files: FileSystem)
    : (r: Result<Invocation, string>)
    ensures FlagValue(O.BinaryOptions(options), "-region").None? ==> r == Failure("Expected -region argument")
    ensures r.Success? ==> FlagValue(O.BinaryOptions(options), "-region") == Some(r.value.region)
    ensures r.Success? ==> CommandOf(r.value) == Command(options)
    ensures r.Success? ==> (r.value.Unrecognised? <==> !IsKnownCommand(Command(options)))
    ensures IsListOrOutputs(Command(options)) ==>
              (r.Success? <==> FlagValue(O.BinaryOptions(options), "-region").Some?)
    ensures FlagValue(O.BinaryOptions(options), "-region").Some? ==>
              Served(options, validFunctionName, validQualifier, files, FlagValue(O.BinaryOptions(options), "-region").value, r)
  {
    var command := Command(options);
    var binary := O.BinaryOptions(options);
    var mono := O.MonoOptions(options);
    match FlagValue(binary, "-region")
    case None => Failure("Expected -region argument")
    case Some(region) =>
      var output := FlagValue(binary, "-output");
      if command == "list" then
        Success(ListStacks(region))
      else if command == "uploadZip" then
        UploadRequest(binary, region)
      else if command == "invoke" then
        InvokeRequest(binary, mono, region, validFunctionName, validQualifier)
      else if command == "outputs" then
        Success(OutputsRequest(binary, region))
      else if command == "deploy" then
        DeployRequest(binary, region, output, files)
      else if command == "delete" then
        DeleteRequest(binary, mono, region)
      else
        Success(Unrecognised(region, command))
  }

  predicate IsListOrOutputs(command: string) {
    command == "list" || command == "outputs"
  }

  /** `r` is what the command of `options` asks for in `region`: each known
      command by its own request, with `-output` going to `deploy`, and
      any other word reported as unrecognised. */
  predicate Served(options: seq<O.Option>, validFunctionName: string -> bool, validQualifier: string -> bool,
                   files: FileSystem, region: string, r: Result<Invocation, string>)
  {
    var command := Command(options);
    var binary := O.BinaryOptions(options);
    var mono := O.MonoOptions(options);
    AllBinary(binary) &&
    (command == "list" ==> r == Success(ListStacks(region))) &&
    (command == "uploadZip" ==> r == UploadRequest(binary, region)) &&
    (command == "invoke" ==> r == InvokeRequest(binary, mono, region, validFunctionName, validQualifier)) &&
    (command == "outputs" ==> r == Success(OutputsRequest(binary, region))) &&
    (command == "deploy" ==> r == DeployRequest(binary, region, FlagValue(binary, "-output"), files)) &&
    (command == "delete" ==> r == DeleteRequest(binary, mono, region)) &&
    (!IsKnownCommand(command) ==> r == Success(Unrecognised(region, command)))
  }

  /** `main` from the raw argument list. */
  function Dispatch(args: seq<string>, validFunctionName: string -> bool, validQualifier: string -> bool,
                    files: FileSystem)
    : (r: Result<Invocation, string>)
    ensures (forall i :: 0 <= i < |args| ==> args[i] != "-region") ==> r == Failure("Expected -region argument")
    ensures FlagValue(O.BinaryOptions(O.From(args)), "-region").None? ==> r == Failure("Expected -region argument")
    ensures FlagValue(O.BinaryOptions(O.From(args)), "-region").Some? ==>
              Served(O.From(args), validFunctionName, validQualifier, files,
                     FlagValue(O.BinaryOptions(O.From(args)), "-region").value, r)
  {
    RegionNeedsToken(args);
    Route(O.From(args), validFunctionName, validQualifier, files)
  }

  /** A `-region` flag in the options comes from a `-region` token. */
  lemma RegionNeedsToken(args: seq<string>)
    ensures (forall i :: 0 <= i < |args| ==> args[i] != "-region") ==>
              FlagValue(O.BinaryOptions(O.From(args)), "-region").None?
  {
    var os := O.From(args);
    var binary := O.BinaryOptions(os);
    if O.NotRequired(binary, "-region").Some? {
      var o := O.NotRequired(binary, "-region").value;
      assert o in binary;
      assert o in os;
      O.OptionFromToken(args, o);
    }
  }

  /** A well-formed qualifier reaches the request. */
  lemma WellFormedQualifierIsUsed(region: string, fn: string, qualifier: string,
                                  f: string -> bool, q: string -> bool, files: FileSystem)
    requires f(fn) && q(qualifier)
    ensures Dispatch(["invoke", "-region", region, "-function-name", fn, "-qualifier", qualifier], f, q, files)
            == Success(Invoke(region, fn, "RequestResponse", "Tail", Some(qualifier), None, None))
  {
    var binary := [O.BinaryOption("-region", region), O.BinaryOption("-function-name", fn),
                   O.BinaryOption("-qualifier", qualifier)];
    QualifierLookup(binary, q);
    binary := InvokeRoute(region, fn, qualifier, f, q, files);
  }

  /** A `-qualifier` the pattern rejects is silently dropped rather than
      reported: the lookup uses `notRequired`, whose first argument (the
      intended error message) is only a name. */
  lemma RejectedQualifierIsIgnored(region: string, fn: string, qualifier: string,
                                   f: string -> bool, q: string -> bool, files: FileSystem)
    requires f(fn) && !q(qualifier)
    ensures Dispatch(["invoke", "-region", region, "-function-name", fn, "-qualifier", qualifier], f, q, files)
            == Success(Invoke(region, fn, "RequestResponse", "Tail", None, None, None))
  {
    var binary := [O.BinaryOption("-region", region), O.BinaryOption("-function-name", fn),
                   O.BinaryOption("-qualifier", qualifier)];
    QualifierLookup(binary, q);
    binary := InvokeRoute(region, fn, qualifier, f, q, files);
  }

  /** In those flags, the qualifier is found exactly when the pattern
      accepts it. */
  lemma QualifierLookup(binary: seq<O.Option>, q: string -> bool)
    requires |binary| == 3 && AllBinary(binary)
    requires binary[0].name == "-region" && binary[1].name == "-function-name" && binary[2].name == "-qualifier"
    ensures ValueWhere(binary, QualifierFlag(q)) == if q(binary[2].value) then Some(binary[2].value) else None
  {
    assert |binary[0].name| == 7 && |binary[1].name| == 14;
    assert !QualifierFlag(q)(binary[0]) && !QualifierFlag(q)(binary[1]);
    if q(binary[2].value) {
      assert O.IsFirstMatch(binary, QualifierFlag(q), 2);
    }
  }

  /** Dispatch of those options goes to `InvokeRequest` with the function
      name found and every other flag absent. */
  lemma InvokeRoute(region: string, fn: string, qualifier: string, f: string -> bool, q: string -> bool,
                    files: FileSystem)
    returns (binary: seq<O.Option>)
    requires f(fn)
    ensures binary == [O.BinaryOption("-region", region), O.BinaryOption("-function-name", fn),
                       O.BinaryOption("-qualifier", qualifier)]
    ensures Dispatch(["invoke", "-region", region, "-function-name", fn, "-qualifier", qualifier], f, q, files)
            == Success(Invoke(region, fn, "RequestResponse", "Tail", ValueWhere(binary, QualifierFlag(q)), None, None))
  {
    binary := InvokeOptions(region, fn, qualifier);
    InvokeLookups(binary, f);
    assert InvokeRequest(binary, [O.MonoOption("invoke")], region, f, q)
           == Success(Invoke(region, fn, "RequestResponse", "Tail", ValueWhere(binary, QualifierFlag(q)), None, None));
    var args := ["invoke", "-region", region, "-function-name", fn, "-qualifier", qualifier];
    RouteToInvoke(O.From(args), f, q, files);
  }

  /** With a region present, the invoke command is served by `InvokeRequest`. */
  lemma RouteToInvoke(options: seq<O.Option>, f: string -> bool, q: string -> bool, files: FileSystem)
    requires Command(options) == "invoke" && FlagValue(O.BinaryOptions(options), "-region").Some?
    ensures AllBinary(O.BinaryOptions(options))
    ensures Route(options, f, q, files)
            == InvokeRequest(O.BinaryOptions(options), O.MonoOptions(options),
                             FlagValue(O.BinaryOptions(options), "-region").value, f, q)
  {
  }

  /** The lookups `invoke` makes in its flags. */
  lemma InvokeLookups(binary: seq<O.Option>, f: string -> bool)
    requires |binary| == 3 && AllBinary(binary) && f(binary[1].value)
    requires binary[0].name == "-region" && binary[1].name == "-function-name" && binary[2].name == "-qualifier"
    ensures FlagValue(binary, "-region") == Some(binary[0].value)
    ensures O.GetWhere(binary, "-function-name must match " + FunctionNamePattern, FunctionNameFlag(f))
            == Success(binary[1])
    ensures FlagValue(binary, "-type") == None
    ensures FlagValue(binary, "-context") == None
    ensures FlagValue(binary, "-payload") == None
    ensures !O.Has([O.MonoOption("invoke")], "--disable-logs")
  {
    FirstFlagValue(binary, "-region");
    assert O.IsFirstMatch(binary, FunctionNameFlag(f), 1);
    AbsentFlag(binary, "-type");
    AbsentFlag(binary, "-context");
    AbsentFlag(binary, "-payload");
  }

  /** A name none of the flags carries is looked up as null. */
  lemma AbsentFlag(binary: seq<O.Option>, name: string)
    requires AllBinary(binary) && forall i :: 0 <= i < |binary| ==> binary[i].name != name
    ensures FlagValue(binary, name) == None
  {
  }

  /** A flag in first place is the one every lookup of its name finds. */
  lemma FirstFlagValue(binary: seq<O.Option>, name: string)
    requires AllBinary(binary) && |binary| > 0 && binary[0].name == name
    ensures FlagValue(binary, name) == Some(binary[0].value)
  {
    assert O.IsFirstMatch(binary, (o: O.Option) => o.name == name, 0);
  }

  /** The options of an `invoke` call with a region, a function name and a
      qualifier. */
  lemma InvokeTokens(region: string, fn: string, qualifier: string)
    ensures O.From(["invoke", "-region", region, "-function-name", fn, "-qualifier", qualifier])
            == [O.MonoOption("invoke"), O.BinaryOption("-region", region),
                O.BinaryOption("-function-name", fn), O.BinaryOption("-qualifier", qualifier)]
  {
    var args := ["invoke", "-region", region, "-function-name", fn, "-qualifier", qualifier];
    assert args == ["invoke"] + (["-region", region] + (["-function-name", fn] + (["-qualifier", qualifier] + [])));
    O.IsBinaryShape("invoke");
    O.IsBinaryShape("-region");
    O.IsBinaryShape("-function-name");
    O.IsBinaryShape("-qualifier");
    O.ScanFlag("-qualifier", qualifier, []);
    O.ScanFlag("-function-name", fn, ["-qualifier", qualifier] + []);
    O.ScanFlag("-region", region, ["-function-name", fn] + (["-qualifier", qualifier] + []));
    O.ScanWord("invoke", ["-region", region] + (["-function-name", fn] + (["-qualifier", qualifier] + [])));
    O.FromIsScan(args);
  }

  /** What the views and the command lookup find in those options. */
  lemma InvokeOptions(region: string, fn: string, qualifier: string) returns (binary: seq<O.Option>)
    ensures var os := O.From(["invoke", "-region", region, "-function-name", fn, "-qualifier", qualifier]);
            && binary == [O.BinaryOption("-region", region), O.BinaryOption("-function-name", fn),
                          O.BinaryOption("-qualifier", qualifier)]
            && O.BinaryOptions(os) == binary
            && O.MonoOptions(os) == [O.MonoOption("invoke")]
            && Command(os) == "invoke"
  {
    InvokeTokens(region, fn, qualifier);
    binary := [O.BinaryOption("-region", region), O.BinaryOption("-function-name", fn),
               O.BinaryOption("-qualifier", qualifier)];
    InvokeViews(binary);
    LeadingCommand([O.MonoOption("invoke")] + binary);
  }

  /** Three flags after the `invoke` word split back into the word and the flags. */
  lemma InvokeViews(binary: seq<O.Option>)
    requires |binary| == 3 && binary[0].BinaryOption? && binary[1].BinaryOption? && binary[2].BinaryOption?
    ensures O.BinaryOptions([O.MonoOption("invoke")] + binary) == binary
    ensures O.MonoOptions([O.MonoOption("invoke")] + binary) == [O.MonoOption("invoke")]
  {
    var os := [O.MonoOption("invoke")] + binary;
    assert os[1..] == binary;
    O.FlagsOnly(os[1..]);
  }
}

=== FILE: options.dfy ===
/** The command-line token classifier of Deploy.kt: the sealed class `Option`,
    the fold `Options.from` that turns the argument list into options, the
    `binaryOptions`/`monoOptions` views and the `get`/`notRequired`/`has`
    lookups.
 */
module Options {
  import W = Wrappers
  import opened Strings

  /** Kotlin's sealed class `Option`. `WaitingOption` is the transient state
      of a flag whose value has not been read yet. */
  datatype Option =
    | MonoOption(name: string)
    | BinaryOption(name: string, value: string)
    | WaitingOption(name: string)

  /** A token opens a flag when it starts with one dash but not two. */
  predicate IsBinary(arg: string) {
    StartsWith(arg, "-") && !StartsWith(arg, "--")
  }

  lemma IsBinaryShape(arg: string)
    ensures IsBinary(arg) <==> |arg| >= 1 && arg[0] == '-' && (|arg| == 1 || arg[1] != '-')
  {
    if |arg| >= 2 {
      assert arg[..2] == [arg[0], arg[1]];
    }
  }

  // ---------------------------------------------------------------------
  // The fold of `Options.from`, written as the source writes it
  // ---------------------------------------------------------------------

  /** The accumulator of the fold: the previous option and the options so far. */
  datatype State = State(previous: Option, options: seq<Option>)

  /** One step of the fold: an open flag takes the token as its value
      whatever it looks like; otherwise a flag token opens a flag and any
      other token is a `MonoOption`. */
  function Step(st: State, arg: string): (r: State)
    ensures r.previous.WaitingOption? <==> !st.previous.WaitingOption? && IsBinary(arg)
    ensures r.previous.WaitingOption? ==> r.options == st.options && r.previous.name == arg
    ensures !r.previous.WaitingOption? ==> r.options == st.options + [r.previous]
    ensures st.previous.WaitingOption? ==> r.previous == BinaryOption(st.previous.name, arg)
    ensures !st.previous.WaitingOption? && !IsBinary(arg) ==> r.previous == MonoOption(arg)
  {
    if st.previous.WaitingOption? then
      var o := BinaryOption(st.previous.name, arg);
      State(o, st.options + [o])
    else if IsBinary(arg) then
      State(WaitingOption(arg), st.options)
    else
      var o := MonoOption(arg);
      State(o, st.options + [o])
  }

  /** Kotlin's left `fold` of `Step` over the tokens. */
  function Fold(st: State, args: seq<string>): (r: State)
    ensures |st.options| <= |r.options| <= |st.options| + |args|
    ensures r.options[..|st.options|] == st.options
    decreases |args|
  {
    if |args| == 0 then st else Fold(Step(st, args[0]), args[1..])
  }

  /** `Options.from`: the first token seeds the fold; a flag left open at the
      end is dropped, except that an otherwise empty result becomes the last
      token as a `MonoOption`. */
  function From(args: seq<string>): (r: seq<Option>)
    ensures r == [] <==> args == []
  {
    if |args| == 0 then []
    else
      var initial := if IsBinary(args[0]) then WaitingOption(args[0]) else MonoOption(args[0]);
      var initialOptions := if initial.WaitingOption? then [] else [initial];
      var options := Fold(State(initial, initialOptions), args[1..]).options;
      if |options| == 0 then options + [MonoOption(args[|args| - 1])] else options
  }

  // ---------------------------------------------------------------------
  // An independent reading of the same rules: consume tokens pairwise
  // ---------------------------------------------------------------------

  /** A flag token and the token after it form one `BinaryOption`; a flag
      with nothing after it yields nothing; any other token is a
      `MonoOption`. */
  function Scan(args: seq<string>): seq<Option>
    decreases |args|
  {
    if |args| == 0 then []
    else if IsBinary(args[0]) then
      if |args| == 1 then [] else [BinaryOption(args[0], args[1])] + Scan(args[2..])
    else [MonoOption(args[0])] + Scan(args[1..])
  }

  /** The input ends with a flag that never received its value. */
  predicate Dangling(args: seq<string>)
    decreases |args|
  {
    if |args| == 0 then false
    else if IsBinary(args[0]) then |args| == 1 || Dangling(args[2..])
    else Dangling(args[1..])
  }

  /** The flag left without a value at the end of the input, if any. */
  function Leftover(args: seq<string>): seq<string> {
    if Dangling(args) then [args[|args| - 1]] else []
  }

  /** What the fold still contributes from a state with `rest` left to read. */
  function Pending(st: State, rest: seq<string>): seq<Option> {
    if st.previous.WaitingOption? then
      if |rest| == 0 then [] else [BinaryOption(st.previous.name, rest[0])] + Scan(rest[1..])
    else Scan(rest)
  }

  /** The fold appends exactly what the pairwise reading predicts. */
  lemma {:induction false} FoldIsScan(st: State, rest: seq<string>)
    ensures Fold(st, rest).options == st.options + Pending(st, rest)
    decreases |rest|
  {
    if |rest| == 0 {
    } else {
      var next := Step(st, rest[0]);
      FoldIsScan(next, rest[1..]);
      if st.previous.WaitingOption? {
        assert next.options == st.options + [BinaryOption(st.previous.name, rest[0])];
      } else if IsBinary(rest[0]) {
        if |rest| >= 2 {
          assert rest[1..][1..] == rest[2..];
        }
      } else {
        assert next.options == st.options + [MonoOption(rest[0])];
      }
    }
  }

  /** `Options.from` is the pairwise reading, with the fallback for an
      otherwise empty result. */
  lemma FromIsScan(args: seq<string>)
    ensures From(args) == if args != [] && Scan(args) == [] then [MonoOption(args[|args| - 1])] else Scan(args)
  {
    if |args| > 0 {
      var initial := if IsBinary(args[0]) then WaitingOption(args[0]) else MonoOption(args[0]);
      var initialOptions := if initial.WaitingOption? then [] else [initial];
      FoldIsScan(State(initial, initialOptions), args[1..]);
      if IsBinary(args[0]) && |args| >= 2 {
        assert args[1..][1..] == args[2..];
      }
    }
  }

  /** The pairwise reading of a flag, its value and more tokens. */
  lemma ScanFlag(flag: string, value: string, rest: seq<string>)
    requires IsBinary(flag)
    ensures Scan([flag, value] + rest) == [BinaryOption(flag, value)] + Scan(rest)
  {
    assert ([flag, value] + rest)[2..] == rest;
  }

  /** The pairwise reading of a word and more tokens. */
  lemma ScanWord(word: string, rest: seq<string>)
    requires !IsBinary(word)
    ensures Scan([word] + rest) == [MonoOption(word)] + Scan(rest)
  {
    assert ([word] + rest)[1..] == rest;
  }

  /** The fallback fires only for a lone flag: `["-x"]` gives `[MonoOption("-x")]`. */
  lemma {:induction false} ScanEmpty(args: seq<string>)
    ensures Scan(args) == [] <==> args == [] || (|args| == 1 && IsBinary(args[0]))
  {
  }

  lemma FromLoneFlag(flag: string)
    requires IsBinary(flag)
    ensures From([flag]) == [MonoOption(flag)]
  {
    FromIsScan([flag]);
  }

  /** The token right after a flag is its value, even when it looks like a
      flag itself. */
  lemma FlagValueNeverReread(args: seq<string>)
    requires |args| >= 2 && IsBinary(args[0])
    ensures From(args)[0] == BinaryOption(args[0], args[1])
  {
    FromIsScan(args);
  }

  lemma FlagFollowedByFlag()
    ensures From(["-x", "-y"]) == [BinaryOption("-x", "-y")]
  {
    IsBinaryShape("-x");
    IsBinaryShape("-y");
    FromIsScan(["-x", "-y"]);
    assert Scan(["-x", "-y"]) == [BinaryOption("-x", "-y")] + Scan([]);
  }

  /** A token with two leading dashes is always a switch (`--force`), never a flag. */
  lemma DoubleDashIsMono(args: seq<string>)
    requires |args| >= 1 && StartsWith(args[0], "--")
    ensures From(args)[0] == MonoOption(args[0])
  {
    FromIsScan(args);
  }

  // ---------------------------------------------------------------------
  // Shape of the result: what it contains and the tokens it came from
  // ---------------------------------------------------------------------

  /** Options as the fold can produce them: flags carry a flag-shaped name,
      switches and words a non-flag name, and nothing is left waiting. */
  predicate WellFormed(os: seq<Option>) {
    forall i :: 0 <= i < |os| ==>
      match os[i]
      case MonoOption(n) => !IsBinary(n)
      case BinaryOption(n, _) => IsBinary(n)
      case WaitingOption(_) => false
  }

  /** The tokens one option stands for. */
  function OptionTokens(o: Option): seq<string> {
    match o
    case MonoOption(n) => [n]
    case BinaryOption(n, v) => [n, v]
    case WaitingOption(n) => [n]
  }

  /** The tokens an option list stands for, in order. */
  function Tokens(os: seq<Option>): seq<string> {
    if |os| == 0 then [] else OptionTokens(os[0]) + Tokens(os[1..])
  }

  lemma TokensCons(o: Option, os: seq<Option>)
    ensures Tokens([o] + os) == OptionTokens(o) + Tokens(os)
  {
    assert ([o] + os)[1..] == os;
  }

  lemma {:induction false} ScanWellFormed(args: seq<string>)
    ensures WellFormed(Scan(args))
    decreases |args|
  {
    if |args| == 0 {
    } else if IsBinary(args[0]) {
      if |args| > 1 {
        ScanWellFormed(args[2..]);
      }
    } else {
      ScanWellFormed(args[1..]);
    }
  }

  /** The options use every token once and in order; only a trailing flag
      with no value is lost. */
  lemma {:induction false} ScanTokens(args: seq<string>)
    ensures Tokens(Scan(args)) + Leftover(args) == args
    decreases |args|
  {
    if |args| == 0 {
    } else if IsBinary(args[0]) && |args| == 1 {
      assert Scan(args) == [] && Leftover(args) == [args[0]];
    } else {
      var skip := if IsBinary(args[0]) then 2 else 1;
      ScanTokens(args[skip..]);
      ScanTokensStep(args, skip);
    }
  }

  /** One option read off the front keeps the token round trip of the rest. */
  lemma ScanTokensStep(args: seq<string>, skip: nat)
    requires |args| > 0 && skip == (if IsBinary(args[0]) then 2 else 1) <= |args|
    requires Tokens(Scan(args[skip..])) + Leftover(args[skip..]) == args[skip..]
    ensures Tokens(Scan(args)) + Leftover(args) == args
  {
    ScanFront(args, skip);
    LeftoverAfter(args, skip);
    Regroup(args[..skip], Tokens(Scan(args[skip..])), Leftover(args[skip..]));
    assert args == args[..skip] + args[skip..];
  }

  /** The tokens of the options read from `args` start with its first option's tokens. */
  lemma ScanFront(args: seq<string>, skip: nat)
    requires |args| > 0 && skip == (if IsBinary(args[0]) then 2 else 1) <= |args|
    ensures Tokens(Scan(args)) == args[..skip] + Tokens(Scan(args[skip..]))
  {
    var o := if skip == 2 then BinaryOption(args[0], args[1]) else MonoOption(args[0]);
    var rest := Scan(args[skip..]);
    assert Scan(args) == [o] + rest;
    TokensCons(o, rest);
    assert OptionTokens(o) == args[..skip];
  }

  lemma Regroup<T>(head: seq<T>, x: seq<T>, y: seq<T>)
    ensures (head + x) + y == head + (x + y)
  {
  }

  /** Skipping one whole option leaves the dangling flag, if any, in place. */
  lemma LeftoverAfter(args: seq<string>, skip: nat)
    requires |args| > 0 && skip == (if IsBinary(args[0]) then 2 else 1) <= |args|
    ensures Leftover(args) == Leftover(args[skip..])
  {
  }

  /** Reading back the tokens of well-formed options gives the options. */
  lemma {:induction false} ScanOfTokens(os: seq<Option>)
    requires WellFormed(os)
    ensures Scan(Tokens(os)) == os
  {
    if |os| > 0 {
      assert WellFormed(os[1..]) by {
        forall i | 0 <= i < |os[1..]|
          ensures match os[1..][i]
                  case MonoOption(n) => !IsBinary(n)
                  case BinaryOption(n, _) => IsBinary(n)
                  case WaitingOption(_) => false
        {
          assert os[1..][i] == os[i + 1];
        }
      }
      ScanOfTokens(os[1..]);
      var ts := Tokens(os);
      match os[0]
      case MonoOption(n) =>
        assert ts == [n] + Tokens(os[1..]);
        assert ts[1..] == Tokens(os[1..]);
      case BinaryOption(n, v) =>
        assert ts == [n, v] + Tokens(os[1..]);
        assert ts[2..] == Tokens(os[1..]);
    }
  }

  /** No `WaitingOption` is ever part of the result. */
  lemma NoWaitingOption(args: seq<string>)
    ensures forall i :: 0 <= i < |From(args)| ==> !From(args)[i].WaitingOption?
  {
    FromIsScan(args);
    ScanWellFormed(args);
  }

  /** Every option is named after one of the tokens. */
  lemma {:induction false} ScanNamesAreTokens(args: seq<string>, o: Option)
    requires o in Scan(args)
    ensures o.name in args
    decreases |args|
  {
    if IsBinary(args[0]) {
      if o != BinaryOption(args[0], args[1]) {
        ScanNamesAreTokens(args[2..], o);
      }
    } else if o != MonoOption(args[0]) {
      ScanNamesAreTokens(args[1..], o);
    }
  }

  lemma OptionFromToken(args: seq<string>, o: Option)
    requires o in From(args)
    ensures o.name in args
  {
    FromIsScan(args);
    if !(args != [] && Scan(args) == []) {
      ScanNamesAreTokens(args, o);
    }
  }

  /** At most one option per token. */
  lemma AtMostOneOptionPerToken(args: seq<string>)
    ensures |From(args)| <= |args|
  {
    FromIsScan(args);
    ScanTokens(args);
    TokensLength(Scan(args));
  }

  lemma {:induction false} TokensLength(os: seq<Option>)
    ensures |os| <= |Tokens(os)|
  {
    if |os| > 0 {
      TokensLength(os[1..]);
    }
  }

  /** Re-tokenizing the token form of the options gives the same options. */
  lemma FromIdempotent(args: seq<string>)
    ensures From(Tokens(From(args))) == From(args)
  {
    FromIsScan(args);
    ScanWellFormed(args);
    if args != [] && Scan(args) == [] {
      var flag := args[|args| - 1];
      assert args == [flag];
      assert Tokens([MonoOption(flag)]) == [flag];
      FromIsScan([flag]);
    } else {
      ScanOfTokens(Scan(args));
      FromIsScan(Tokens(Scan(args)));
    }
  }

  // ---------------------------------------------------------------------
  // The two views
  // ---------------------------------------------------------------------

  /** `binaryOptions`: the `BinaryOption`s, in order. */
  function BinaryOptions(os: seq<Option>): (r: seq<Option>)
    ensures forall o :: o in r <==> o in os && o.BinaryOption?
    ensures forall i :: 0 <= i < |r| ==> r[i].BinaryOption?
    ensures |r| <= |os|
  {
    if |os| == 0 then []
    else (if os[0].BinaryOption? then [os[0]] else []) + BinaryOptions(os[1..])
  }

  /** `monoOptions`: the `MonoOption`s, in order. */
  function MonoOptions(os: seq<Option>): (r: seq<Option>)
    ensures forall o :: o in r <==> o in os && o.MonoOption?
    ensures |r| <= |os|
  {
    if |os| == 0 then []
    else (if os[0].MonoOption? then [os[0]] else []) + MonoOptions(os[1..])
  }

  /** A list of flags alone is its own `binaryOptions` and has no `monoOptions`. */
  lemma {:induction false} FlagsOnly(os: seq<Option>)
    requires forall i :: 0 <= i < |os| ==> os[i].BinaryOption?
    ensures BinaryOptions(os) == os && MonoOptions(os) == []
  {
    if |os| > 0 {
      FlagsOnly(os[1..]);
    }
  }

  /** The head of `monoOptions` is the first `MonoOption` of the list. */
  lemma {:induction false} MonoOptionsHead(os: seq<Option>)
    ensures |MonoOptions(os)| > 0 ==>
              exists i :: IsFirstMatch(os, (o: Option) => o.MonoOption?, i) && os[i] == MonoOptions(os)[0]
  {
    if |os| > 0 {
      if os[0].MonoOption? {
        assert IsFirstMatch(os, (o: Option) => o.MonoOption?, 0);
      } else {
        MonoOptionsHead(os[1..]);
        if |MonoOptions(os[1..])| > 0 {
          var i :| IsFirstMatch(os[1..], (o: Option) => o.MonoOption?, i) && os[1..][i] == MonoOptions(os[1..])[0];
          assert IsFirstMatch(os, (o: Option) => o.MonoOption?, i + 1);
        }
      }
    }
  }

  /** Both views keep the relative order of the list they come from. */
  lemma ViewsDistribute(a: seq<Option>, b: seq<Option>)
    ensures BinaryOptions(a + b) == BinaryOptions(a) + BinaryOptions(b)
    ensures MonoOptions(a + b) == MonoOptions(a) + MonoOptions(b)
  {
    BinaryDistribute(a, b);
    MonoDistribute(a, b);
  }

  lemma {:induction false} BinaryDistribute(a: seq<Option>, b: seq<Option>)
    ensures BinaryOptions(a + b) == BinaryOptions(a) + BinaryOptions(b)
  {
    if |a| > 0 {
      var ab := a + b;
      assert ab[0] == a[0];
      assert ab[1..] == a[1..] + b;
      BinaryDistribute(a[1..], b);
    } else {
      assert a + b == b;
    }
  }

  lemma {:induction false} MonoDistribute(a: seq<Option>, b: seq<Option>)
    ensures MonoOptions(a + b) == MonoOptions(a) + MonoOptions(b)
  {
    if |a| > 0 {
      var ab := a + b;
      assert ab[0] == a[0];
      assert ab[1..] == a[1..] + b;
      MonoDistribute(a[1..], b);
    } else {
      assert a + b == b;
    }
  }

  /** Without waiting options, the two views partition the list. */
  lemma {:induction false} ViewsPartition(os: seq<Option>)
    requires forall i :: 0 <= i < |os| ==> !os[i].WaitingOption?
    ensures |BinaryOptions(os)| + |MonoOptions(os)| == |os|
  {
    if |os| > 0 {
      assert !os[0].WaitingOption?;
      ViewsPartition(os[1..]);
    }
  }

  // ---------------------------------------------------------------------
  // Lookups
  // ---------------------------------------------------------------------

  /** `i` is the first index whose option satisfies `compare`. */
  predicate IsFirstMatch(os: seq<Option>, compare: Option -> bool, i: int) {
    0 <= i < |os| && compare(os[i]) && forall j :: 0 <= j < i ==> !compare(os[j])
  }

  /** Kotlin's `find`: the first option satisfying `compare`, or null. */
  function Find(os: seq<Option>, compare: Option -> bool): (r: W.Option<Option>)
    ensures r.None? <==> forall i :: 0 <= i < |os| ==> !compare(os[i])
    ensures r.Some? ==> exists i :: IsFirstMatch(os, compare, i) && os[i] == r.value
  {
    if |os| == 0 then W.None
    else if compare(os[0]) then
      assert IsFirstMatch(os, compare, 0);
      W.Some(os[0])
    else
      var r := Find(os[1..], compare);
      if r.Some? then
        var i :| IsFirstMatch(os[1..], compare, i) && os[1..][i] == r.value;
        assert IsFirstMatch(os, compare, i + 1);
        r
      else r
  }

  /** The general `get` operator: the first match, or an
      IllegalArgumentException carrying `message`. */
  function GetWhere(os: seq<Option>, message: string, compare: Option -> bool): (r: W.Result<Option, string>)
    ensures r.Failure? <==> forall i :: 0 <= i < |os| ==> !compare(os[i])
    ensures r.Failure? ==> r.error == message
    ensures r.Success? ==> exists i :: IsFirstMatch(os, compare, i) && os[i] == r.value
  {
    match Find(os, compare)
    case Some(o) => W.Success(o)
    case None => W.Failure(message)
  }

  /** `get(name)`: the first option called `name`, failing with
      "Expected <name> argument". */
  function Get(os: seq<Option>, name: string): (r: W.Result<Option, string>)
    ensures r.Failure? <==> forall i :: 0 <= i < |os| ==> os[i].name != name
    ensures r.Failure? ==> r.error == "Expected " + name + " argument"
    ensures r.Success? ==> r.value.name == name && exists i :: 0 <= i < |os| && os[i] == r.value
    ensures r.Success? ==> exists i :: IsFirstMatch(os, (o: Option) => o.name == name, i) && os[i] == r.value
  {
    GetWhere(os, "Expected " + name + " argument", (o: Option) => o.name == name)
  }

  /** `notRequired(name)`: the first option called `name`, or null. */
  function NotRequired(os: seq<Option>, name: string): (r: W.Option<Option>)
    ensures r.None? <==> forall i :: 0 <= i < |os| ==> os[i].name != name
    ensures r.Some? ==> r.value.name == name && exists i :: 0 <= i < |os| && os[i] == r.value
    ensures r.Some? ==> exists i :: IsFirstMatch(os, (o: Option) => o.name == name, i) && os[i] == r.value
  {
    Find(os, (o: Option) => o.name == name)
  }

  /** `has(name)`: some option is called `name`. */
  function Has(os: seq<Option>, name: string): (r: bool)
    ensures r <==> exists i :: 0 <= i < |os| && os[i].name == name
  {
    NotRequired(os, name).Some?
  }

  /** `get` and `notRequired` agree: the first is the second with an error
      in place of null. */
  lemma GetAgreesWithNotRequired(os: seq<Option>, name: string)
    ensures Get(os, name).Success? <==> NotRequired(os, name).Some?
    ensures Get(os, name).Success? ==> Get(os, name).value == NotRequired(os, name).value
  {
  }
}

=== FILE: outputs.dfy ===
/** OutputInfo.kt: the exported outputs of a stack, and the `key=value` file
    the deploy command writes from them (Deploy.kt).

    Kotlin's `Map` built by `toMap()` and `+` is a LinkedHashMap: keys are
    distinct and keep the position of their first insertion. It is modelled
    as a list of entries with distinct keys.
 */
module Outputs {
  import opened Wrappers
  import opened Strings

  predicate DistinctKeys(es: seq<(string, string)>) {
    forall i, j :: 0 <= i < j < |es| ==> es[i].0 != es[j].0
  }

  type Entries = es: seq<(string, string)> | DistinctKeys(es) witness []

  datatype OutputInfo = OutputInfo(entries: Entries)

  function Keys(info: OutputInfo): set<string> {
    set i | 0 <= i < |info.entries| :: info.entries[i].0
  }

  /** The position of key `k`, if present. */
  function KeyIndex(es: seq<(string, string)>, k: string): (r: Option<nat>)
    ensures r.None? <==> forall i :: 0 <= i < |es| ==> es[i].0 != k
    ensures r.Some? ==> r.value < |es| && es[r.value].0 == k
  {
    if |es| == 0 then None
    else if es[0].0 == k then Some(0)
    else
      match KeyIndex(es[1..], k)
      case None => None
      case Some(i) => Some(i + 1)
  }

  /** `outputs[k]`: the value stored under `k`, or null. */
  function Lookup(info: OutputInfo, k: string): (r: Option<string>)
    ensures r.None? <==> k !in Keys(info)
    ensures r.Some? ==> (k, r.value) in info.entries
  {
    match KeyIndex(info.entries, k)
    case None => None
    case Some(i) => Some(info.entries[i].1)
  }

  /** The contents as a Dafny map. */
  function AsMap(info: OutputInfo): (m: map<string, string>)
    ensures m.Keys == Keys(info)
    ensures forall k :: k in m ==> Lookup(info, k) == Some(m[k])
  {
    map k | k in Keys(info) :: Lookup(info, k).value
  }

  /** `OutputInfo()`: the default holds no outputs. */
  function Default(): (r: OutputInfo)
    ensures Keys(r) == {}
    ensures forall k :: Lookup(r, k).None?
  {
    OutputInfo([])
  }

  /** `info + (k to v)`: `k` now maps to `v`, every other key keeps its value
      and its place, and a new key goes last. */
  function Plus(info: OutputInfo, k: string, v: string): (r: OutputInfo)
    ensures Lookup(r, k) == Some(v)
    ensures forall k' :: k' != k ==> Lookup(r, k') == Lookup(info, k')
    ensures Keys(r) == Keys(info) + {k}
    ensures |r.entries| == |info.entries| + (if k in Keys(info) then 0 else 1)
    ensures k !in Keys(info) ==> r.entries == info.entries + [(k, v)]
    ensures k in Keys(info) ==>
              (|r.entries| == |info.entries| &&
               forall i :: 0 <= i < |r.entries| ==> r.entries[i].0 == info.entries[i].0)
  {
    var es := info.entries;
    match KeyIndex(es, k)
    case Some(i) =>
      var es' := es[i := (k, v)];
      ReplaceKeepsKeys(es, i, k, v);
      var r := OutputInfo(es');
      assert KeyIndex(es', k) == Some(i);
      assert forall k' :: k' != k ==> KeyIndex(es', k') == KeyIndex(es, k') by {
        forall k' | k' != k ensures KeyIndex(es', k') == KeyIndex(es, k') {
          KeyIndexUpdate(es, i, k, v, k');
        }
      }
      r
    case None =>
      var es' := es + [(k, v)];
      AppendAddsKey(es, k, v);
      var r := OutputInfo(es');
      assert forall k' :: k' != k ==> KeyIndex(es', k') == KeyIndex(es, k') by {
        forall k' | k' != k ensures KeyIndex(es', k') == KeyIndex(es, k') {
          KeyIndexAppend(es, k, v, k');
        }
      }
      KeyIndexAppend(es, k, v, k);
      r
  }

  lemma ReplaceKeepsKeys(es: Entries, i: nat, k: string, v: string)
    requires i < |es| && es[i].0 == k
    ensures DistinctKeys(es[i := (k, v)])
    ensures Keys(OutputInfo(es[i := (k, v)])) == Keys(OutputInfo(es))
  {
    var es' := es[i := (k, v)];
    forall key | key in Keys(OutputInfo(es')) ensures key in Keys(OutputInfo(es)) {
      var j :| 0 <= j < |es'| && es'[j].0 == key;
      assert es[j].0 == key;
    }
    forall key | key in Keys(OutputInfo(es)) ensures key in Keys(OutputInfo(es')) {
      var j :| 0 <= j < |es| && es[j].0 == key;
      assert es'[j].0 == key;
    }
  }

  lemma AppendAddsKey(es: Entries, k: string, v: string)
    requires forall i :: 0 <= i < |es| ==> es[i].0 != k
    ensures DistinctKeys(es + [(k, v)])
    ensures Keys(OutputInfo(es + [(k, v)])) == Keys(OutputInfo(es)) + {k}
  {
    var es' := es + [(k, v)];
    forall key | key in Keys(OutputInfo(es')) ensures key in Keys(OutputInfo(es)) + {k} {
      var j :| 0 <= j < |es'| && es'[j].0 == key;
      if j < |es| {
        assert es[j].0 == key;
      }
    }
    forall key | key in Keys(OutputInfo(es)) ensures key in Keys(OutputInfo(es')) {
      var j :| 0 <= j < |es| && es[j].0 == key;
      assert es'[j].0 == key;
    }
    assert es'[|es|].0 == k;
  }

  lemma {:induction false} KeyIndexUpdate(es: seq<(string, string)>, i: nat, k: string, v: string, k': string)
    requires i < |es| && es[i].0 == k && k' != k
    ensures KeyIndex(es[i := (k, v)], k') == KeyIndex(es, k')
  {
    if i > 0 {
      assert es[i := (k, v)][1..] == es[1..][i - 1 := (k, v)];
      KeyIndexUpdate(es[1..], i - 1, k, v, k');
    }
  }

  lemma {:induction false} KeyIndexAppend(es: seq<(string, string)>, k: string, v: string, k': string)
    requires forall i :: 0 <= i < |es| ==> es[i].0 != k
    ensures k' != k ==> KeyIndex(es + [(k, v)], k') == KeyIndex(es, k')
    ensures KeyIndex(es + [(k, v)], k) == Some(|es|)
  {
    if |es| > 0 {
      assert (es + [(k, v)])[1..] == es[1..] + [(k, v)];
      KeyIndexAppend(es[1..], k, v, k');
    }
  }

  /** `plus` is the immutable map update. */
  lemma PlusIsMapUpdate(info: OutputInfo, k: string, v: string)
    ensures AsMap(Plus(info, k, v)) == AsMap(info)[k := v]
  {
    var r := Plus(info, k, v);
    var a, b := AsMap(r), AsMap(info);
    assert forall key :: key in b && key != k ==> a[key] == b[key] by {
      forall key | key in b && key != k ensures a[key] == b[key] {
        assert Lookup(r, key) == Lookup(info, key);
      }
    }
    MapUpdateByKeys(a, b, k, v);
  }

  lemma MapUpdateByKeys(a: map<string, string>, b: map<string, string>, k: string, v: string)
    requires a.Keys == b.Keys + {k} && k in a && a[k] == v
    requires forall key :: key in b && key != k ==> a[key] == b[key]
    ensures a == b[k := v]
  {
  }

  /** Adding a key twice keeps only the last value. */
  lemma PlusOverwrites(info: OutputInfo, k: string, v1: string, v2: string)
    ensures AsMap(Plus(Plus(info, k, v1), k, v2)) == AsMap(Plus(info, k, v2))
  {
    var once := Plus(info, k, v1);
    PlusIsMapUpdate(once, k, v2);
    PlusIsMapUpdate(info, k, v1);
    PlusIsMapUpdate(info, k, v2);
    UpdateTwice(AsMap(info), k, v1, v2);
  }

  lemma UpdateTwice<K, V>(m: map<K, V>, k: K, v1: V, v2: V)
    ensures m[k := v1][k := v2] == m[k := v2]
  {
    var a, b := m[k := v1][k := v2], m[k := v2];
    assert a.Keys == b.Keys;
    assert forall key :: key in a ==> a[key] == b[key];
  }

  /** Kotlin's `pairs.toMap()`: the pairs put in order, a later pair for the
      same key replacing the earlier value in place. */
  function FromPairs(pairs: seq<(string, string)>): (r: OutputInfo)
    ensures Keys(r) == set i | 0 <= i < |pairs| :: pairs[i].0
    decreases |pairs|
  {
    if |pairs| == 0 then Default()
    else
      var last := pairs[|pairs| - 1];
      var init := pairs[..|pairs| - 1];
      var prior := FromPairs(init);
      PairKeysOfInit(pairs, init);
      Plus(prior, last.0, last.1)
  }

  /** The keys of some pairs are those of all but the last, and the last. */
  lemma PairKeysOfInit(pairs: seq<(string, string)>, init: seq<(string, string)>)
    requires |pairs| > 0 && init == pairs[..|pairs| - 1]
    ensures (set i | 0 <= i < |pairs| :: pairs[i].0) == (set i | 0 <= i < |init| :: init[i].0) + {pairs[|pairs| - 1].0}
  {
    assert forall i :: 0 <= i < |init| ==> init[i] == pairs[i];
  }

  /** The value kept for a key is the one in its last pair. */
  lemma {:induction false} FromPairsLastWins(pairs: seq<(string, string)>, i: nat)
    requires i < |pairs|
    requires forall j :: i < j < |pairs| ==> pairs[j].0 != pairs[i].0
    ensures Lookup(FromPairs(pairs), pairs[i].0) == Some(pairs[i].1)
    decreases |pairs|
  {
    if i < |pairs| - 1 {
      var init := pairs[..|pairs| - 1];
      assert init[i] == pairs[i];
      FromPairsLastWins(init, i);
    }
  }

  /** Pairs with distinct keys are kept as given, in order. */
  lemma {:induction false} FromDistinctPairs(pairs: seq<(string, string)>)
    requires DistinctKeys(pairs)
    ensures FromPairs(pairs).entries == pairs
    decreases |pairs|
  {
    if |pairs| > 0 {
      var init := pairs[..|pairs| - 1];
      var last := pairs[|pairs| - 1];
      assert init + [last] == pairs;
      assert DistinctKeys(init) by {
        assert forall i :: 0 <= i < |init| ==> init[i] == pairs[i];
      }
      FromDistinctPairs(init);
      LastKeyIsFresh(pairs);
      assert FromPairs(pairs).entries == FromPairs(init).entries + [last];
    }
  }

  /** With distinct keys, the last key is not among those of the pairs
      before it. */
  lemma LastKeyIsFresh(pairs: seq<(string, string)>)
    requires DistinctKeys(pairs) && |pairs| > 0
    ensures pairs[|pairs| - 1].0 !in Keys(FromPairs(pairs[..|pairs| - 1]))
  {
    var init := pairs[..|pairs| - 1];
    assert forall i :: 0 <= i < |init| ==> init[i] == pairs[i];
  }

  // ---------------------------------------------------------------------
  // The `-output` file written after a successful deploy
  // ---------------------------------------------------------------------

  /** One `key=value` line per entry, in map order. */
  function OutputLines(es: seq<(string, string)>): (r: seq<string>)
    ensures |r| == |es|
    ensures forall i :: 0 <= i < |es| ==> r[i] == es[i].0 + "=" + es[i].1
  {
    if |es| == 0 then [] else [es[0].0 + "=" + es[0].1] + OutputLines(es[1..])
  }

  /** `joinToString("\n") { "$key=$value" }` over key/value pairs: the
      `-output` file, and the text `listOutputsFor` gives back. */
  function KeyValueText(pairs: seq<(string, string)>): string {
    Join(OutputLines(pairs), "\n")
  }

  /** `outputs.toList().joinToString("\n") { "$key=$value" }`: the text
      of the `-output` file. */
  function OutputFileText(info: OutputInfo): string {
    KeyValueText(info.entries)
  }

  /** The `-output` file reads back line by line as one `key=value` line
      per entry in map order, as long as no key or value holds a line
      break. */
  lemma OutputFileTextLines(info: OutputInfo)
    requires |info.entries| >= 1
    requires forall i :: 0 <= i < |info.entries| ==> '\n' !in info.entries[i].0 && '\n' !in info.entries[i].1
    ensures Split(OutputFileText(info), '\n') == OutputLines(info.entries)
  {
    KeyValueTextLines(info.entries);
  }

  /** Reading the text back line by line gives one `key=value` line per
      pair, in order, as long as no key or value holds a line break. */
  lemma KeyValueTextLines(pairs: seq<(string, string)>)
    requires |pairs| >= 1
    requires forall i :: 0 <= i < |pairs| ==> '\n' !in pairs[i].0 && '\n' !in pairs[i].1
    ensures Split(KeyValueText(pairs), '\n') == OutputLines(pairs)
  {
    var lines := OutputLines(pairs);
    forall i | 0 <= i < |lines| ensures '\n' !in lines[i] {
      assert lines[i] == pairs[i].0 + "=" + pairs[i].1;
    }
    SplitJoin(lines, '\n');
  }
}

=== FILE: stackbuilder.dfy ===
/** StackBuilder.kt: the stack reconciliation observer.

    The CloudFormation client is replaced by its replies: a `DescribeReply`
    for each `describeStacks` call and a finite sequence of `Poll`s for the
    loop in `waitFor`, each poll holding the reply to `describeStacks` and
    the resource list `describeStackResources` returned with it. Printing is
    replaced by returned lines, `System.exit` by an exit code in the result,
    and `Thread.sleep` by moving on to the next poll.
 */
module StackBuilder {
  import opened Wrappers
  import opened Strings
  import Outputs

  // ---------------------------------------------------------------------
  // Data
  // ---------------------------------------------------------------------

  /** The CloudFormation `StackStatus` values. */
  datatype StackStatus =
    | CreateInProgress | CreateFailed | CreateComplete
    | RollbackInProgress | RollbackFailed | RollbackComplete
    | DeleteInProgress | DeleteFailed | DeleteComplete
    | UpdateInProgress | UpdateCompleteCleanupInProgress | UpdateComplete
    | UpdateRollbackInProgress | UpdateRollbackFailed
    | UpdateRollbackCompleteCleanupInProgress | UpdateRollbackComplete
    | ReviewInProgress

  /** `status.toString()`. */
  function StatusName(s: StackStatus): string {
    match s
    case CreateInProgress => "CREATE_IN_PROGRESS"
    case CreateFailed => "CREATE_FAILED"
    case CreateComplete => "CREATE_COMPLETE"
    case RollbackInProgress => "ROLLBACK_IN_PROGRESS"
    case RollbackFailed => "ROLLBACK_FAILED"
    case RollbackComplete => "ROLLBACK_COMPLETE"
    case DeleteInProgress => "DELETE_IN_PROGRESS"
    case DeleteFailed => "DELETE_FAILED"
    case DeleteComplete => "DELETE_COMPLETE"
    case UpdateInProgress => "UPDATE_IN_PROGRESS"
    case UpdateCompleteCleanupInProgress => "UPDATE_COMPLETE_CLEANUP_IN_PROGRESS"
    case UpdateComplete => "UPDATE_COMPLETE"
    case UpdateRollbackInProgress => "UPDATE_ROLLBACK_IN_PROGRESS"
    case UpdateRollbackFailed => "UPDATE_ROLLBACK_FAILED"
    case UpdateRollbackCompleteCleanupInProgress => "UPDATE_ROLLBACK_COMPLETE_CLEANUP_IN_PROGRESS"
    case UpdateRollbackComplete => "UPDATE_ROLLBACK_COMPLETE"
    case ReviewInProgress => "REVIEW_IN_PROGRESS"
  }

  /** Comparing status names, as `waitFor` does, is comparing statuses. */
  lemma StatusNameInjective(a: StackStatus, b: StackStatus)
    requires StatusName(a) == StatusName(b)
    ensures a == b
  {
  }

  /** `terminalStatuses`: the loop stops on these. */
  const TerminalStatuses: set<StackStatus> := {
    CreateComplete, CreateFailed, DeleteComplete, DeleteFailed,
    RollbackComplete, RollbackFailed, UpdateComplete,
    UpdateRollbackComplete, UpdateRollbackFailed
  }

  /** `successStatuses`: a create or update succeeded. */
  const SuccessStatuses: set<StackStatus> := {CreateComplete, UpdateComplete}

  /** `deleteSuccessStatuses`: a delete succeeded. */
  const DeleteSuccessStatuses: set<StackStatus> := {DeleteComplete}

  lemma StatusSets()
    ensures |TerminalStatuses| == 9
    ensures SuccessStatuses <= TerminalStatuses && DeleteSuccessStatuses <= TerminalStatuses
    ensures SuccessStatuses !! DeleteSuccessStatuses
  {
  }

  /** A `StackResource` as `describeStackResources` reports it; the status
      is its string form. */
  datatype Resource = Resource(
    logicalId: string,
    resourceType: Option<string>,
    status: string,
    reason: Option<string>,
    physicalId: Option<string>)

  /** A `Stack` as `describeStacks` reports it; outputs are key/value pairs
      in the order the service lists them. */
  datatype Stack = Stack(
    id: string,
    name: string,
    status: StackStatus,
    reason: Option<string>,
    outputs: seq<(string, string)>)

  /** A `CloudFormationException`: the error code and message of its
      `awsErrorDetails()`, and the exception's own `message`, which is what
      gets printed. */
  datatype ServiceError = ServiceError(code: string, message: string, text: string)

  /** What one `describeStacks` call gives back. */
  datatype DescribeReply = Stacks(stacks: seq<Stack>) | Raised(error: ServiceError)

  /** One iteration of the poll loop. */
  datatype Poll = Poll(describe: DescribeReply, resources: seq<Resource>)

  /** A line on standard output or standard error. */
  datatype Line = Out(text: string) | Err(text: string)

  function Outs(texts: seq<string>): (r: seq<Line>)
    ensures |r| == |texts|
    ensures forall i :: 0 <= i < |texts| ==> r[i] == Out(texts[i])
  {
    if |texts| == 0 then [] else [Out(texts[0])] + Outs(texts[1..])
  }

  // ---------------------------------------------------------------------
  // stackWith
  // ---------------------------------------------------------------------

  function NotFoundMessage(name: string): string {
    "Stack with id " + name + " does not exist"
  }

  /** `stackWith(name)`: the first stack described, null when there is none
      or when the service says exactly that the stack does not exist; any
      other error is rethrown. */
  function StackWith(name: string, reply: DescribeReply): (r: Result<Option<Stack>, ServiceError>)
    ensures r.Failure? <==> reply.Raised? && reply.error.message != NotFoundMessage(name)
    ensures r.Failure? ==> r.error == reply.error
    ensures r == Success(None) <==>
              (reply.Stacks? && reply.stacks == []) ||
              (reply.Raised? && reply.error.message == NotFoundMessage(name))
    ensures r.Success? && r.value.Some? ==> reply.Stacks? && r.value.value == reply.stacks[0]
  {
    match reply
    case Stacks(ss) => if |ss| == 0 then Success(None) else Success(Some(ss[0]))
    case Raised(e) => if e.message == NotFoundMessage(name) then Success(None) else Failure(e)
  }

  // ---------------------------------------------------------------------
  // handle
  // ---------------------------------------------------------------------

  /** What a handler prints, and the exit code it ends the process with. */
  datatype Effect = Effect(lines: seq<Line>, exit: Option<int>)

  const ValidationError := "ValidationError"
  const NoUpdatesMessage := "No updates are to be performed."

  /** `handle(error)`: "no updates are to be performed" is a successful
      no-op; every other error is printed to standard error and exits 1. */
  function Handle(e: ServiceError): (r: Effect)
    ensures r.exit.None? <==> e.code == ValidationError && e.message == NoUpdatesMessage
    ensures r.exit.None? ==> r.lines == [Out(""), Out("Update Complete (No Change)"), Out("")]
    ensures r.exit.Some? ==> r.exit.value == 1 && r.lines == [Err(e.text)]
  {
    if e.code == ValidationError then
      if e.message == NoUpdatesMessage then
        Effect([Out(""), Out("Update Complete (No Change)"), Out("")], None)
      else Effect([Err(e.text)], Some(1))
    else Effect([Err(e.text)], Some(1))
  }

  // ---------------------------------------------------------------------
  // print and printResourceUpdates
  // ---------------------------------------------------------------------

  /** `print(...)`: "<id> <type> Status became <status>", then
      " because <reason>" when there is a reason, then " (<physicalId>)"
      when there is a physical id. */
  function ProgressLine(logicalId: string, resourceType: string, status: string,
                        physicalId: Option<string>, reason: Option<string>): (line: string)
    ensures StartsWith(line, logicalId + " " + resourceType + " Status became " + status)
    ensures |line| == |logicalId| + |resourceType| + |status| + 16
                      + (if reason.Some? then 9 + |reason.value| else 0)
                      + (if physicalId.Some? then 3 + |physicalId.value| else 0)
    ensures reason.Some? ==>
              OccursAt(line, " because " + reason.value, |logicalId| + |resourceType| + |status| + 16)
    ensures physicalId.Some? ==>
              OccursAt(line, " (" + physicalId.value + ")", |line| - |physicalId.value| - 3)
  {
    var head := logicalId + " " + resourceType + " Status became " + status;
    var because := match reason case Some(r) => " because " + r case None => "";
    var paren := match physicalId case Some(p) => " (" + p + ")" case None => "";
    assert (head + because + paren)[..|head|] == head;
    assert (head + because + paren)[|head|..|head| + |because|] == because;
    assert (head + because + paren)[|head| + |because|..] == paren;
    head + because + paren
  }

  /** The progress line of one resource; a missing type prints as "". */
  function ResourceLine(r: Resource): (line: string)
    ensures r.resourceType.None? ==> StartsWith(line, r.logicalId + "  Status became " + r.status)
    ensures r.resourceType.Some? ==>
              StartsWith(line, r.logicalId + " " + r.resourceType.value + " Status became " + r.status)
    ensures |line| == |r.logicalId| + |r.resourceType.GetOr("")| + |r.status| + 16
                      + (if r.reason.Some? then 9 + |r.reason.value| else 0)
                      + (if r.physicalId.Some? then 3 + |r.physicalId.value| else 0)
  {
    MissingTypeHead(r.logicalId, r.status);
    ProgressLine(r.logicalId, r.resourceType.GetOr(""), r.status, r.physicalId, r.reason)
  }

  lemma MissingTypeHead(logicalId: string, status: string)
    ensures logicalId + " " + "" + " Status became " + status == logicalId + "  Status became " + status
  {
    assert " " + "" + " Status became " == "  Status became ";
  }

  /** `resources.find { it.logicalResourceId() == id }`. */
  function FindById(rs: seq<Resource>, id: string): (r: Option<Resource>)
    ensures r.None? <==> forall i :: 0 <= i < |rs| ==> rs[i].logicalId != id
    ensures r.Some? ==>
              (r.value.logicalId == id &&
               exists i :: 0 <= i < |rs| && rs[i] == r.value &&
                           forall j :: 0 <= j < i ==> rs[j].logicalId != id)
  {
    if |rs| == 0 then None
    else if rs[0].logicalId == id then Some(rs[0])
    else
      var r := FindById(rs[1..], id);
      if r.Some? then
        var i :| 0 <= i < |rs[1..]| && rs[1..][i] == r.value &&
                 forall j :: 0 <= j < i ==> rs[1..][j].logicalId != id;
        assert rs[i + 1] == r.value;
        r
      else r
  }

  /** A current resource is reported when it is new, when its status
      changed, or when it has a new, non-null reason. */
  predicate Changed(previous: seq<Resource>, r: Resource): (changed: bool)
    ensures (forall i :: 0 <= i < |previous| ==> previous[i].logicalId != r.logicalId) ==> changed
    ensures r in previous && UniqueIds(previous) ==> !changed
  {
    match FindById(previous, r.logicalId)
    case None => true
    case Some(before) => before.status != r.status || (before.reason != r.reason && r.reason.Some?)
  }

  /** The current resources that are reported, in current-list order. */
  function ChangedResources(previous: seq<Resource>, current: seq<Resource>): (rs: seq<Resource>)
    ensures |rs| <= |current|
  {
    if |current| == 0 then []
    else
      (if Changed(previous, current[0]) then [current[0]] else [])
      + ChangedResources(previous, current[1..])
  }

  /** The diff holds exactly the current resources that changed, and is
      empty exactly when none did. */
  lemma {:induction false} ChangedMembers(previous: seq<Resource>, current: seq<Resource>)
    ensures forall r :: r in ChangedResources(previous, current) <==> r in current && Changed(previous, r)
    ensures ChangedResources(previous, current) == [] <==> forall r :: r in current ==> !Changed(previous, r)
  {
    if |current| > 0 {
      ChangedMembers(previous, current[1..]);
      assert forall r :: r in current <==> r == current[0] || r in current[1..];
      var rs := ChangedResources(previous, current);
      if rs != [] {
        assert rs[0] in rs;
      }
    }
  }

  /** The diff keeps or drops the first resource on its own. */
  lemma ChangedCons(previous: seq<Resource>, r: Resource, rest: seq<Resource>)
    ensures ChangedResources(previous, [r] + rest)
            == (if Changed(previous, r) then [r] else []) + ChangedResources(previous, rest)
  {
    assert ([r] + rest)[0] == r;
    assert ([r] + rest)[1..] == rest;
  }

  /** The diff keeps current-list order: it distributes over
      concatenation. */
  lemma {:induction false} ChangedDistribute(previous: seq<Resource>, a: seq<Resource>, b: seq<Resource>)
    ensures ChangedResources(previous, a + b) == ChangedResources(previous, a) + ChangedResources(previous, b)
  {
    if |a| > 0 {
      assert a == [a[0]] + a[1..];
      assert a + b == [a[0]] + (a[1..] + b);
      var head := if Changed(previous, a[0]) then [a[0]] else [];
      var (x, y) := (ChangedResources(previous, a[1..]), ChangedResources(previous, b));
      ChangedCons(previous, a[0], a[1..] + b);
      ChangedCons(previous, a[0], a[1..]);
      ChangedDistribute(previous, a[1..], b);
      assert head + (x + y) == (head + x) + y;
    } else {
      assert a + b == b;
    }
  }

  function ResourceLines(rs: seq<Resource>): (lines: seq<string>)
    ensures |lines| == |rs|
    ensures forall i :: 0 <= i < |rs| ==> lines[i] == ResourceLine(rs[i])
  {
    if |rs| == 0 then [] else [ResourceLine(rs[0])] + ResourceLines(rs[1..])
  }

  /** The lines for the current resources, in current-list order. */
  function ChangedLines(previous: seq<Resource>, current: seq<Resource>): seq<string> {
    ResourceLines(ChangedResources(previous, current))
  }

  /** The resources of `previous` whose logical id is gone from `current`,
      in previous-list order. */
  function Removed(previous: seq<Resource>, current: seq<Resource>): (gone: seq<Resource>)
    ensures |gone| <= |previous|
  {
    if |previous| == 0 then []
    else
      (if FindById(current, previous[0].logicalId).None? then [previous[0]] else [])
      + Removed(previous[1..], current)
  }

  /** The removals are exactly the previous resources whose logical id no
      current resource has. */
  lemma {:induction false} RemovedMembers(previous: seq<Resource>, current: seq<Resource>)
    ensures forall p :: p in Removed(previous, current) <==> p in previous && FindById(current, p.logicalId).None?
  {
    if |previous| > 0 {
      RemovedMembers(previous[1..], current);
      assert forall p :: p in previous <==> p == previous[0] || p in previous[1..];
    }
  }

  /** The removals keep or drop the first previous resource on its own. */
  lemma RemovedCons(p: Resource, rest: seq<Resource>, current: seq<Resource>)
    ensures Removed([p] + rest, current)
            == (if FindById(current, p.logicalId).None? then [p] else []) + Removed(rest, current)
  {
    assert ([p] + rest)[0] == p;
    assert ([p] + rest)[1..] == rest;
  }

  /** The removals keep previous-list order: they distribute over
      concatenation. */
  lemma {:induction false} RemovedDistribute(a: seq<Resource>, b: seq<Resource>, current: seq<Resource>)
    ensures Removed(a + b, current) == Removed(a, current) + Removed(b, current)
  {
    if |a| > 0 {
      assert a == [a[0]] + a[1..];
      assert a + b == [a[0]] + (a[1..] + b);
      var head := if FindById(current, a[0].logicalId).None? then [a[0]] else [];
      var (x, y) := (Removed(a[1..], current), Removed(b, current));
      RemovedCons(a[0], a[1..] + b, current);
      RemovedCons(a[0], a[1..], current);
      RemovedDistribute(a[1..], b, current);
      assert head + (x + y) == (head + x) + y;
    } else {
      assert a + b == b;
    }
  }

  function RemovedLine(r: Resource): string {
    r.logicalId + " has been removed"
  }

  function RemovedLines(gone: seq<Resource>): (lines: seq<string>)
    ensures |lines| == |gone|
    ensures forall i :: 0 <= i < |gone| ==> lines[i] == RemovedLine(gone[i])
  {
    if |gone| == 0 then [] else [RemovedLine(gone[0])] + RemovedLines(gone[1..])
  }

  /** `printResourceUpdates`: the lines for current resources first, then
      one removal line per vanished resource. */
  function ResourceUpdates(previous: seq<Resource>, current: seq<Resource>): (lines: seq<string>)
    ensures |lines| == |ChangedResources(previous, current)| + |Removed(previous, current)|
    ensures |lines| <= |current| + |previous|
    ensures lines[..|ChangedResources(previous, current)|] == ResourceLines(ChangedResources(previous, current))
    ensures forall i :: 0 <= i < |Removed(previous, current)| ==>
              lines[|ChangedResources(previous, current)| + i] == RemovedLine(Removed(previous, current)[i])
  {
    var changed := ChangedLines(previous, current);
    var removed := RemovedLines(Removed(previous, current));
    Concatenation(changed, removed);
    changed + removed
  }

  lemma Concatenation<T>(a: seq<T>, b: seq<T>)
    ensures |a + b| == |a| + |b| && (a + b)[..|a|] == a
    ensures forall i :: 0 <= i < |b| ==> (a + b)[|a| + i] == b[i]
  {
  }

  lemma PrefixOfPrefix<T>(s: seq<T>, p: seq<T>, q: seq<T>)
    requires |p| + |q| <= |s| && s[..|p| + |q|] == p + q
    ensures s[..|p|] == p
  {
    assert s[..|p|] == s[..|p| + |q|][..|p|];
  }

  /** Logical ids are unique in a resource list. */
  predicate UniqueIds(rs: seq<Resource>) {
    forall i, j :: 0 <= i < j < |rs| ==> rs[i].logicalId != rs[j].logicalId
  }

  /** Some previous resource with the same logical id already showed this
      status, and the reason is the same or has merely been cleared. */
  ghost predicate AlreadySeen(previous: seq<Resource>, r: Resource) {
    exists p :: p in previous && p.logicalId == r.logicalId && p.status == r.status &&
                (p.reason == r.reason || r.reason.None?)
  }

  /** With unique logical ids, a resource is reported exactly when it was
      not already seen in this state in the previous poll (seen, not
      necessarily printed: the first poll's resources are never printed). */
  lemma ChangedIffNotReported(previous: seq<Resource>, r: Resource)
    requires UniqueIds(previous)
    ensures Changed(previous, r) <==> !AlreadySeen(previous, r)
  {
    match FindById(previous, r.logicalId)
    case None =>
    case Some(before) =>
      if AlreadySeen(previous, r) {
        var p :| p in previous && p.logicalId == r.logicalId && p.status == r.status &&
                 (p.reason == r.reason || r.reason.None?);
        assert p == before;
      }
  }

  /** Two identical resource lists produce no lines at all. */
  lemma {:induction false} IdenticalListsAreSilent(rs: seq<Resource>)
    requires UniqueIds(rs)
    ensures ResourceUpdates(rs, rs) == []
  {
    forall r | r in rs ensures !Changed(rs, r) {
      ChangedIffNotReported(rs, r);
    }
    ChangedMembers(rs, rs);
    NothingRemoved(rs, rs);
  }

  lemma {:induction false} NothingRemoved(previous: seq<Resource>, current: seq<Resource>)
    requires forall p :: p in previous ==> p in current
    ensures Removed(previous, current) == []
  {
    if |previous| > 0 {
      assert previous[0] in current;
      NothingRemoved(previous[1..], current);
    }
  }

  /** A reason that changes to null alone is not reported. */
  lemma ClearedReasonIsSilent(before: Resource, r: Resource)
    requires before.logicalId == r.logicalId && before.status == r.status && r.reason.None?
    ensures ResourceUpdates([before], [r]) == []
  {
    assert FindById([before], r.logicalId) == Some(before);
    assert ChangedLines([before], [r][1..]) == [];
    assert Removed([before], [r]) == [] by {
      assert FindById([r], before.logicalId) == Some(r);
    }
  }

  /** A new, non-null reason alone is reported. */
  lemma NewReasonIsReported(before: Resource, r: Resource)
    requires before.logicalId == r.logicalId && before.status == r.status
    requires r.reason.Some? && before.reason != r.reason
    ensures ResourceUpdates([before], [r]) == [ResourceLine(r)]
  {
    assert FindById([before], r.logicalId) == Some(before);
    assert ChangedLines([before], [r][1..]) == [];
    assert Removed([before], [r]) == [] by {
      assert FindById([r], before.logicalId) == Some(r);
    }
  }

  /** Removal lines come last, one per vanished resource, in previous-list
      order. */
  lemma RemovalLinesComeLast(previous: seq<Resource>, current: seq<Resource>)
    ensures var lines := ResourceUpdates(previous, current);
            var k := |ChangedLines(previous, current)|;
            var gone := Removed(previous, current);
            k + |gone| == |lines| &&
            lines[..k] == ResourceLines(ChangedResources(previous, current)) &&
            (forall i :: 0 <= i < |gone| ==> lines[k + i] == gone[i].logicalId + " has been removed") &&
            (forall p :: p in gone <==> p in previous && forall c :: c in current ==> c.logicalId != p.logicalId)
  {
    var gone := Removed(previous, current);
    RemovedMembers(previous, current);
    forall p | p in previous
      ensures FindById(current, p.logicalId).None? <==> forall c :: c in current ==> c.logicalId != p.logicalId
    {
      if FindById(current, p.logicalId).Some? {
        var c := FindById(current, p.logicalId).value;
        assert c in current;
      }
    }
  }

  // ---------------------------------------------------------------------
  // waitFor
  // ---------------------------------------------------------------------

  /** The accumulator arguments of `waitFor`: the previous stack status
      string and reason, and the previous resources. */
  datatype Previous = Previous(status: Option<string>, reason: Option<string>, resources: seq<Resource>)

  /** The defaults `waitFor` starts from. */
  const FirstPoll := Previous(None, None, [])

  const StackType := "AWS::CloudFormation::Stack"

  /** The stack's own progress line: the stack as a resource of type
      `AWS::CloudFormation::Stack` whose physical id is the stack id. */
  function StackLine(stack: Stack): (line: string)
    ensures StartsWith(line, stack.name + " " + StackType + " Status became " + StatusName(stack.status))
    ensures |line| == |stack.name| + |StackType| + |StatusName(stack.status)| + 16
                      + (if stack.reason.Some? then 9 + |stack.reason.value| else 0) + 3 + |stack.id|
    ensures OccursAt(line, " (" + stack.id + ")", |line| - |stack.id| - 3)
    ensures stack.reason.Some? ==>
              OccursAt(line, " because " + stack.reason.value,
                       |stack.name| + |StackType| + |StatusName(stack.status)| + 16)
  {
    ProgressLine(stack.name, StackType, StatusName(stack.status), Some(stack.id), stack.reason)
  }

  /** The stack line is due when the status name or the reason differs from
      the previous poll. */
  predicate StackChanged(prev: Previous, stack: Stack): (changed: bool)
    ensures prev.status.None? ==> changed
    ensures prev == After(stack, prev.resources) ==> !changed
  {
    Some(StatusName(stack.status)) != prev.status || stack.reason != prev.reason
  }

  /** The lines of one poll: the resource diff, only when there were
      previous resources, then the stack line when it changed. */
  function PollLines(prev: Previous, stack: Stack, resources: seq<Resource>): (lines: seq<string>)
    ensures prev.resources == [] ==> |lines| <= 1
    ensures |lines| == (if |prev.resources| > 0 then |ResourceUpdates(prev.resources, resources)| else 0)
                       + (if StackChanged(prev, stack) then 1 else 0)
    ensures |prev.resources| > 0 ==>
              lines[..|ResourceUpdates(prev.resources, resources)|] == ResourceUpdates(prev.resources, resources)
    ensures StackChanged(prev, stack) ==> |lines| > 0 && lines[|lines| - 1] == StackLine(stack)
    ensures |lines| <= |resources| + |prev.resources| + 1
  {
    (if |prev.resources| > 0 then ResourceUpdates(prev.resources, resources) else [])
    + (if StackChanged(prev, stack) then [StackLine(stack)] else [])
  }

  /** What the loop carries into the next poll. */
  function After(stack: Stack, resources: seq<Resource>): Previous {
    Previous(Some(StatusName(stack.status)), stack.reason, resources)
  }

  /** The first poll prints exactly the stack line. */
  lemma FirstPollPrintsStackLine(stack: Stack, resources: seq<Resource>)
    ensures PollLines(FirstPoll, stack, resources) == [StackLine(stack)]
  {
  }

  /** The stack line is printed exactly when the status or reason changed. */
  lemma StackLineIffChanged(stack: Stack, next: Stack)
    ensures StackChanged(After(stack, []), next) <==> next.status != stack.status || next.reason != stack.reason
  {
    if StatusName(next.status) == StatusName(stack.status) {
      StatusNameInjective(next.status, stack.status);
    }
  }

  /** A poll identical to the previous one prints nothing. */
  lemma RepeatedPollIsSilent(stack: Stack, resources: seq<Resource>)
    requires UniqueIds(resources)
    ensures PollLines(After(stack, resources), stack, resources) == []
  {
    if |resources| > 0 {
      IdenticalListsAreSilent(resources);
    }
  }

  /** Resources that appear after a poll with no resources are not announced. */
  lemma ResourcesAfterEmptyPollAreSilent(stack: Stack, next: Stack, resources: seq<Resource>)
    requires next.status == stack.status && next.reason == stack.reason
    ensures PollLines(After(stack, []), next, resources) == []
  {
  }

  /** `StackBuilder.Result`: the final stack, if any, and the verdict. */
  datatype Verdict = Verdict(stack: Option<Stack>, success: bool)

  /** How the loop ends: with a verdict, with an exception from
      `describeStacks`, or with the observations used up while the stack is
      still in progress. */
  datatype WaitOutcome =
    | Finished(lines: seq<string>, verdict: Verdict)
    | Threw(lines: seq<string>, error: ServiceError)
    | Exhausted(lines: seq<string>)

  function Prepend(lines: seq<string>, o: WaitOutcome): (r: WaitOutcome)
    ensures r.lines == lines + o.lines
    ensures r.Finished? <==> o.Finished?
    ensures r.Threw? <==> o.Threw?
    ensures r.Finished? ==> r.verdict == o.verdict
    ensures r.Threw? ==> r.error == o.error
  {
    match o
    case Finished(ls, v) => Finished(lines + ls, v)
    case Threw(ls, e) => Threw(lines + ls, e)
    case Exhausted(ls) => Exhausted(lines + ls)
  }

  /** The poll finds the stack in a status from which the loop goes on. */
  predicate Continues(name: string, poll: Poll) {
    var found := StackWith(name, poll.describe);
    found.Success? && found.value.Some? && found.value.value.status !in TerminalStatuses
  }

  /** The verdict the loop reaches on a poll that does not continue. */
  function Stop(name: string, success: set<StackStatus>, poll: Poll): WaitOutcome {
    match StackWith(name, poll.describe)
    case Failure(e) => Threw([], e)
    case Success(None) => Finished([], Verdict(None, DeleteComplete in success))
    case Success(Some(stack)) => Finished([], Verdict(Some(stack), stack.status in success))
  }

  /** `waitFor`: poll until the stack is gone or in a terminal status. */
  function WaitFor(name: string, success: set<StackStatus>, prev: Previous, polls: seq<Poll>): (o: WaitOutcome)
    ensures o.Exhausted? <==> forall i :: 0 <= i < |polls| ==> Continues(name, polls[i])
    ensures o.Finished? && o.verdict.stack.Some? ==>
              o.verdict.stack.value.status in TerminalStatuses &&
              (o.verdict.success <==> o.verdict.stack.value.status in success)
    ensures o.Finished? && o.verdict.stack.None? ==> o.verdict.success == (DeleteComplete in success)
    decreases |polls|
  {
    if |polls| == 0 then Exhausted([])
    else
      var poll := polls[0];
      match StackWith(name, poll.describe)
      case Failure(e) => Threw([], e)
      case Success(None) => Finished([], Verdict(None, DeleteComplete in success))
      case Success(Some(stack)) =>
        var lines := PollLines(prev, stack, poll.resources);
        if stack.status in TerminalStatuses then
          Finished(lines, Verdict(Some(stack), stack.status in success))
        else
          var rest := WaitFor(name, success, After(stack, poll.resources), polls[1..]);
          assert forall i :: 1 <= i < |polls| ==> polls[i] == polls[1..][i - 1];
          Prepend(lines, rest)
  }

  /** The loop ends on the first poll that does not continue, with that
      poll's verdict, and never looks at a later poll. */
  lemma {:induction false} WaitForStopsAtFirstStop(name: string, success: set<StackStatus>, prev: Previous,
                                                   polls: seq<Poll>, i: nat)
    requires i < |polls| && !Continues(name, polls[i])
    requires forall j :: 0 <= j < i ==> Continues(name, polls[j])
    decreases i
    ensures var o := WaitFor(name, success, prev, polls);
            var s := Stop(name, success, polls[i]);
            (o.Finished? <==> s.Finished?) && (o.Threw? <==> s.Threw?) &&
            (o.Finished? ==> o.verdict == s.verdict) &&
            (o.Threw? ==> o.error == s.error)
    ensures WaitFor(name, success, prev, polls) == WaitFor(name, success, prev, polls[..i + 1])
  {
    if i > 0 {
      assert Continues(name, polls[0]);
      var stack := StackWith(name, polls[0].describe).value.value;
      var next := After(stack, polls[0].resources);
      forall j | 0 <= j < i - 1 ensures Continues(name, polls[1..][j]) {
        assert polls[1..][j] == polls[j + 1];
      }
      WaitForStopsAtFirstStop(name, success, next, polls[1..], i - 1);
      assert polls[..i + 1][1..] == polls[1..][..i];
      assert polls[..i + 1][0] == polls[0];
    }
  }

  /** One iteration of the loop: a poll that finds the stack prints
      `PollLines` and, unless the stack is terminal, the loop goes on from
      the state that poll leaves; a poll that does not find it prints
      nothing more. */
  lemma WaitForStep(name: string, success: set<StackStatus>, prev: Previous, poll: Poll, rest: seq<Poll>)
    ensures var o := WaitFor(name, success, prev, [poll] + rest);
            var found := StackWith(name, poll.describe);
            (found.Failure? ==> o == Threw([], found.error)) &&
            (found == Success(None) ==> o == Finished([], Verdict(None, DeleteComplete in success))) &&
            (found.Success? && found.value.Some? && found.value.value.status in TerminalStatuses ==>
               o == Finished(PollLines(prev, found.value.value, poll.resources),
                             Verdict(found.value, found.value.value.status in success))) &&
            (Continues(name, poll) ==>
               o.lines == PollLines(prev, found.value.value, poll.resources)
                          + WaitFor(name, success, After(found.value.value, poll.resources), rest).lines)
  {
    assert ([poll] + rest)[0] == poll;
    assert ([poll] + rest)[1..] == rest;
  }

  /** Seeing the same poll twice in a row changes nothing: the repeat
      prints no line and leaves the loop where it was. */
  lemma RepeatedPollChangesNothing(name: string, success: set<StackStatus>, prev: Previous, poll: Poll,
                                   rest: seq<Poll>)
    requires UniqueIds(poll.resources)
    ensures WaitFor(name, success, prev, [poll, poll] + rest) == WaitFor(name, success, prev, [poll] + rest)
  {
    assert [poll, poll] + rest == [poll] + ([poll] + rest);
    WaitForStep(name, success, prev, poll, [poll] + rest);
    WaitForStep(name, success, prev, poll, rest);
    if Continues(name, poll) {
      var stack := StackWith(name, poll.describe).value.value;
      var next := After(stack, poll.resources);
      WaitForStep(name, success, next, poll, rest);
      RepeatedPollIsSilent(stack, poll.resources);
      assert WaitFor(name, success, next, [poll] + rest) == Prepend([], WaitFor(name, success, next, rest));
      PrependNothing(WaitFor(name, success, next, rest));
    }
  }

  lemma PrependNothing(o: WaitOutcome)
    ensures Prepend([], o) == o
  {
    assert [] + o.lines == o.lines;
  }

  /** Deploy: success exactly when the stack ends in CREATE_COMPLETE or
      UPDATE_COMPLETE; ROLLBACK_COMPLETE is a failure and a vanished stack
      is a failure. */
  lemma DeployVerdict(name: string, polls: seq<Poll>)
    ensures var o := WaitFor(name, SuccessStatuses, FirstPoll, polls);
            o.Finished? ==>
              (o.verdict.success <==>
                 o.verdict.stack.Some? && o.verdict.stack.value.status in {CreateComplete, UpdateComplete})
  {
  }

  /** Delete: success exactly when the stack vanished or ended in
      DELETE_COMPLETE. */
  lemma DeleteVerdict(name: string, polls: seq<Poll>)
    ensures var o := WaitFor(name, DeleteSuccessStatuses, FirstPoll, polls);
            o.Finished? ==>
              (o.verdict.success <==>
                 o.verdict.stack.None? || o.verdict.stack.value.status == DeleteComplete)
  {
  }

  /** A stack reported as ROLLBACK_COMPLETE on the first poll fails the deploy. */
  lemma RollbackCompleteFailsDeploy(name: string, stack: Stack, resources: seq<Resource>)
    requires stack.status == RollbackComplete
    ensures WaitFor(name, SuccessStatuses, FirstPoll, [Poll(Stacks([stack]), resources)])
            == Finished([StackLine(stack)], Verdict(Some(stack), false))
  {
  }

  // ---------------------------------------------------------------------
  // createOrUpdate, deleteStack, listStacks
  // ---------------------------------------------------------------------

  /** How an operation ends: it returns (with the outputs createOrUpdate
      hands back, if any), it ends the process with an exit code, or the
      observations ran out while it was still polling. */
  datatype Ending = Returned(outputs: Option<Outputs.OutputInfo>) | Exited(code: int) | StillPolling

  datatype Report = Report(lines: seq<Line>, ending: Ending)

  /** How `handle(error)` ends the operation: it returns after the no-op
      message, and otherwise exits with code 1. */
  function HandleEnding(e: ServiceError): (r: Ending)
    ensures r == Returned(None) <==> e.code == ValidationError && e.message == NoUpdatesMessage
    ensures r != Returned(None) ==> r == Exited(1)
  {
    if Handle(e).exit.None? then Returned(None) else Exited(1)
  }

  /** The lines so far, then what `handle(error)` prints, and its ending. */
  function Handled(before: seq<Line>, e: ServiceError): (r: Report)
    ensures r.lines == before + Handle(e).lines && r.lines[..|before|] == before
    ensures r.ending == HandleEnding(e)
  {
    var h := Handle(e);
    Report(before + h.lines, if h.exit.Some? then Exited(h.exit.value) else Returned(None))
  }

  /** The three lines that open `createOrUpdate` and `deleteStack`: the
      title framed by runs of '#' between two blank lines. */
  function Banner(title: string): (lines: seq<Line>)
    ensures |lines| == 3 && lines[0] == Out("") && lines[2] == Out("")
    ensures lines[1].Out? && StartsWith(lines[1].text, "#################### Stack " + title + " ")
    ensures |lines[1].text| == |title| + 51
    ensures lines[1].text[|title| + 27..] == " #######################"
  {
    [Out(""), Out("#################### Stack " + title + " #######################"), Out("")]
  }

  /** The success printout of createOrUpdate: "<key>: <value>" per output. */
  function OutputPrintLines(outputs: seq<(string, string)>): (r: seq<Line>)
    ensures |r| == |outputs|
    ensures forall i :: 0 <= i < |outputs| ==> r[i] == Out(outputs[i].0 + ": " + outputs[i].1)
  {
    if |outputs| == 0 then [] else [Out(outputs[0].0 + ": " + outputs[0].1)] + OutputPrintLines(outputs[1..])
  }

  /** `createOrUpdate(stackName, template)`: update when the stack exists,
      create otherwise, wait, and hand back the outputs on success.
      `existing` is the reply to the existence check and `submitted` the
      error, if any, thrown by the create or update request. */
  function CreateOrUpdate(name: string, existing: DescribeReply, submitted: Option<ServiceError>,
                          polls: seq<Poll>): (r: Report)
    ensures r.ending.Returned? && r.ending.outputs.Some? ==>
              var o := WaitFor(name, SuccessStatuses, FirstPoll, polls);
              o.Finished? && o.verdict.success && o.verdict.stack.Some? &&
              o.verdict.stack.value.status in SuccessStatuses &&
              r.ending.outputs.value == Outputs.FromPairs(o.verdict.stack.value.outputs)
    ensures r.ending.Exited? ==> r.ending.code == 1
    ensures |r.lines| >= 3 && r.lines[..3] == Banner("Deploy")
    ensures StackWith(name, existing).Failure? ==> r == Handled(Banner("Deploy"), StackWith(name, existing).error)
    ensures StackWith(name, existing).Success? && submitted.Some? ==> r == Handled(Banner("Deploy"), submitted.value)
    ensures StackWith(name, existing).Success? && submitted.None? ==>
              DeployReport(name, if StackWith(name, existing).value.Some? then "Updating" else "Creating", polls, r)
  {
    var head := Banner("Deploy");
    match StackWith(name, existing)
    case Failure(e) => Handled(head, e)
    case Success(found) =>
      if submitted.Some? then Handled(head, submitted.value)
      else
        var r := Deploying(name, if found.Some? then "Updating" else "Creating", polls);
        PrefixOfPrefix(r.lines, head, [Out(""), Out((if found.Some? then "Updating" else "Creating") + " Stack " + name), Out("")]);
        r
  }

  /** What `createOrUpdate` shows and how it ends once the request is in:
      the banner and the announced action, the lines of `waitFor`, then an
      ending that follows the outcome of `waitFor` - still polling, the
      ending `handle` gives an exception, exit 1 for a failed stack, and the
      stack's outputs for a successful one. */
  predicate DeployReport(name: string, action: string, polls: seq<Poll>, r: Report) {
    var o := WaitFor(name, SuccessStatuses, FirstPoll, polls);
    |r.lines| >= 6 + |o.lines| &&
    r.lines[..6] == Banner("Deploy") + [Out(""), Out(action + " Stack " + name), Out("")] &&
    r.lines[6..6 + |o.lines|] == Outs(o.lines) &&
    (o.Exhausted? ==> r.ending == StillPolling) &&
    (o.Threw? ==> r.ending == HandleEnding(o.error)) &&
    (o.Finished? && !o.verdict.success ==> r.ending == Exited(1)) &&
    (o.Finished? && o.verdict.success ==>
       o.verdict.stack.Some? && o.verdict.stack.value.status in SuccessStatuses &&
       r.ending == Returned(Some(Outputs.FromPairs(o.verdict.stack.value.outputs)))) &&
    (r.ending.Returned? && r.ending.outputs.Some? ==> o.Finished? && o.verdict.success) &&
    (o.Exhausted? ==> |r.lines| == 6 + |o.lines|) &&
    (o.Threw? ==> r.lines[6 + |o.lines|..] == Handle(o.error).lines) &&
    (o.Finished? && o.verdict.success && o.verdict.stack.Some? ==>
       r.lines[6 + |o.lines|..]
       == [Out(""), Out("Stack Update Complete"), Out("")] + OutputPrintLines(o.verdict.stack.value.outputs) + [Out("")]) &&
    (o.Finished? && !o.verdict.success ==>
       r.lines[6 + |o.lines|..] == [Err(""), Err("Stack Update Failure"), Err("")])
  }

  /** `createOrUpdate` once the request is in: the action announced, then
      `waitFor` and what follows it. */
  function Deploying(name: string, action: string, polls: seq<Poll>): (r: Report)
    ensures DeployReport(name, action, polls, r)
  {
    var started := Banner("Deploy") + [Out(""), Out(action + " Stack " + name), Out("")];
    var o := WaitFor(name, SuccessStatuses, FirstPoll, polls);
    var r := AfterDeploy(started, o);
    assert r.lines[..3] == started[..3];
    assert DeleteComplete !in SuccessStatuses;
    r
  }

  /** The rest of `createOrUpdate` once `waitFor` has come back with `o`:
      its lines, then the success printout and the outputs, the failure
      printout and exit 1, or `handle` of the exception. */
  function AfterDeploy(started: seq<Line>, o: WaitOutcome): (r: Report)
    ensures |r.lines| >= |started| + |o.lines|
    ensures r.lines[..|started|] == started && r.lines[|started|..|started| + |o.lines|] == Outs(o.lines)
    ensures o.Exhausted? ==> r.ending == StillPolling
    ensures o.Threw? ==> r.ending == HandleEnding(o.error)
    ensures o.Finished? && !o.verdict.success ==> r.ending == Exited(1)
    ensures o.Finished? && o.verdict.success ==>
              r.ending == Returned(Some(Outputs.FromPairs(if o.verdict.stack.Some? then o.verdict.stack.value.outputs else [])))
    ensures r.ending.Returned? && r.ending.outputs.Some? ==> o.Finished? && o.verdict.success
    ensures o.Exhausted? ==> |r.lines| == |started| + |o.lines|
    ensures o.Threw? ==> r.lines[|started| + |o.lines|..] == Handle(o.error).lines
    ensures o.Finished? && o.verdict.success ==>
              r.lines[|started| + |o.lines|..]
              == [Out(""), Out("Stack Update Complete"), Out("")]
                 + OutputPrintLines(if o.verdict.stack.Some? then o.verdict.stack.value.outputs else []) + [Out("")]
    ensures o.Finished? && !o.verdict.success ==>
              r.lines[|started| + |o.lines|..] == [Err(""), Err("Stack Update Failure"), Err("")]
  {
    var shown := started + Outs(o.lines);
    assert shown[..|started|] == started && shown[|started|..] == Outs(o.lines);
    match o
    case Exhausted(ls) => Report(shown, StillPolling)
    case Threw(ls, e) => Handled(shown, e)
    case Finished(ls, v) =>
      if v.success then
        var outputs := if v.stack.Some? then v.stack.value.outputs else [];
        var tail := [Out(""), Out("Stack Update Complete"), Out("")] + OutputPrintLines(outputs) + [Out("")];
        assert (shown + tail)[..|shown|] == shown;
        Report(shown + tail, Returned(Some(Outputs.FromPairs(outputs))))
      else
        var tail := [Err(""), Err("Stack Update Failure"), Err("")];
        assert (shown + tail)[..|shown|] == shown;
        Report(shown + tail, Exited(1))
  }

  /** An update that changes nothing is reported and is not a failure. */
  lemma NoOpUpdateIsNotFailure(name: string, stack: Stack, e: ServiceError, polls: seq<Poll>)
    requires e.code == ValidationError && e.message == NoUpdatesMessage
    ensures CreateOrUpdate(name, Stacks([stack]), Some(e), polls)
            == Report(Banner("Deploy") + [Out(""), Out("Update Complete (No Change)"), Out("")], Returned(None))
  {
  }

  /** The existence check decides between update and create. */
  lemma UpdateIffStackExists(name: string, existing: DescribeReply, polls: seq<Poll>)
    requires StackWith(name, existing).Success?
    ensures var r := CreateOrUpdate(name, existing, None, polls);
            |r.lines| >= 5 &&
            r.lines[4] == Out((if StackWith(name, existing).value.Some? then "Updating" else "Creating")
                              + " Stack " + name)
  {
  }

  /** A deploy whose stack ends in a terminal failure exits with code 1. */
  lemma FailedDeployExits(name: string, existing: DescribeReply, polls: seq<Poll>)
    requires StackWith(name, existing).Success?
    requires WaitFor(name, SuccessStatuses, FirstPoll, polls).Finished?
    requires !WaitFor(name, SuccessStatuses, FirstPoll, polls).verdict.success
    ensures CreateOrUpdate(name, existing, None, polls).ending == Exited(1)
  {
  }

  /** `deleteStack(name)`: request the delete and wait for the stack to go.
      `submitted` is the error, if any, thrown by the delete request. */
  function DeleteStack(name: string, submitted: Option<ServiceError>, polls: seq<Poll>): (r: Report)
    ensures r.ending.Exited? ==> r.ending.code == 1
    ensures r.ending.Returned? ==> r.ending.outputs.None?
    ensures submitted.None? && WaitFor(name, DeleteSuccessStatuses, FirstPoll, polls).Finished? ==>
              (r.ending == Returned(None) <==> WaitFor(name, DeleteSuccessStatuses, FirstPoll, polls).verdict.success)
    ensures |r.lines| >= 3 && r.lines[..3] == Banner("Delete")
    ensures submitted.Some? ==> r == Handled(Banner("Delete"), submitted.value)
    ensures submitted.None? ==>
              var o := WaitFor(name, DeleteSuccessStatuses, FirstPoll, polls);
              |r.lines| >= 6 + |o.lines| &&
              r.lines[..6] == Banner("Delete") + [Out(""), Out("Deleting Stack " + name), Out("")] &&
              r.lines[6..6 + |o.lines|] == Outs(o.lines) &&
              (o.Exhausted? ==> r.ending == StillPolling) &&
              (o.Threw? ==> r.ending == HandleEnding(o.error)) &&
              (o.Finished? ==> r.ending == if o.verdict.success then Returned(None) else Exited(1)) &&
              (o.Exhausted? ==> |r.lines| == 6 + |o.lines|) &&
              (o.Threw? ==> r.lines[6 + |o.lines|..] == Handle(o.error).lines) &&
              (o.Finished? ==>
                 r.lines[6 + |o.lines|..]
                 == if o.verdict.success then [Out(""), Out("Stack Delete Complete"), Out("")]
                    else [Err(""), Err("Stack Delete Failure"), Err("")])
  {
    var head := Banner("Delete");
    if submitted.Some? then Handled(head, submitted.value)
    else
      var started := head + [Out(""), Out("Deleting Stack " + name), Out("")];
      var r := AfterDelete(started, WaitFor(name, DeleteSuccessStatuses, FirstPoll, polls));
      assert r.lines[..3] == started[..3] == head;
      r
  }

  /** The rest of `deleteStack` once `waitFor` has come back with `o`. */
  function AfterDelete(started: seq<Line>, o: WaitOutcome): (r: Report)
    ensures |r.lines| >= |started| + |o.lines|
    ensures r.lines[..|started|] == started && r.lines[|started|..|started| + |o.lines|] == Outs(o.lines)
    ensures o.Exhausted? ==> r.ending == StillPolling
    ensures o.Threw? ==> r.ending == HandleEnding(o.error)
    ensures o.Finished? ==> r.ending == if o.verdict.success then Returned(None) else Exited(1)
    ensures o.Exhausted? ==> |r.lines| == |started| + |o.lines|
    ensures o.Threw? ==> r.lines[|started| + |o.lines|..] == Handle(o.error).lines
    ensures o.Finished? ==>
              r.lines[|started| + |o.lines|..]
              == if o.verdict.success then [Out(""), Out("Stack Delete Complete"), Out("")]
                 else [Err(""), Err("Stack Delete Failure"), Err("")]
  {
    var shown := started + Outs(o.lines);
    assert shown[..|started|] == started && shown[|started|..] == Outs(o.lines);
    match o
    case Exhausted(ls) => Report(shown, StillPolling)
    case Threw(ls, e) => Handled(shown, e)
    case Finished(ls, v) =>
      if v.success then Report(shown + [Out(""), Out("Stack Delete Complete"), Out("")], Returned(None))
      else Report(shown + [Err(""), Err("Stack Delete Failure"), Err("")], Exited(1))
  }

  /** A stack that is gone on the first poll counts as deleted. */
  lemma VanishedStackIsDeleted(name: string, polls: seq<Poll>)
    requires |polls| > 0 && polls[0].describe == Raised(ServiceError("ValidationError", NotFoundMessage(name), "gone"))
    ensures DeleteStack(name, None, polls).ending == Returned(None)
    ensures WaitFor(name, SuccessStatuses, FirstPoll, polls) == Finished([], Verdict(None, false))
  {
  }

  /** `listStacks()`: a heading, then "<name> <status>" per stack. */
  function ListStacks(region: string, stacks: seq<Stack>): (r: seq<Line>)
    ensures |r| == |stacks| + 4
    ensures r[0] == Out("") && r[1] == Out("Stacks in the " + region + " region") && r[2] == Out("")
    ensures r[|r| - 1] == Out("")
    ensures forall i :: 0 <= i < |stacks| ==> r[3 + i] == Out(stacks[i].name + " " + StatusName(stacks[i].status))
  {
    [Out(""), Out("Stacks in the " + region + " region"), Out("")] + StackRows(stacks) + [Out("")]
  }

  function StackRows(stacks: seq<Stack>): (r: seq<Line>)
    ensures |r| == |stacks|
    ensures forall i :: 0 <= i < |stacks| ==> r[i] == Out(stacks[i].name + " " + StatusName(stacks[i].status))
  {
    if |stacks| == 0 then [] else [Out(stacks[0].name + " " + StatusName(stacks[0].status))] + StackRows(stacks[1..])
  }
}

=== FILE: stackfinder.dfy ===
/** StackFinder.kt: find one stack by a loose name and render its outputs.

    `describeStacks()` is replaced by the list of stacks it returns.
 */
module StackFinder {
  import opened Wrappers
  import opened Strings
  import Outputs
  import SB = StackBuilder

  /** `availableStackStatuses`: only settled stacks are looked at. */
  const AvailableStackStatuses: set<SB.StackStatus> :=
    {SB.CreateComplete, SB.UpdateComplete, SB.UpdateRollbackComplete}

  /** `matching(name)`: the id or the name equals the query, or the id
      matches `.*<query>.*`, read here as "the id contains the query". */
  predicate Matching(query: string, stack: SB.Stack): (m: bool)
    ensures stack.name == query ==> m
    ensures Contains(stack.id, query) ==> m
    ensures m ==> stack.name == query || Contains(stack.id, query)
  {
    assert stack.id == query ==> OccursAt(stack.id, query, 0);
    stack.id == query || stack.name == query || Contains(stack.id, query)
  }

  /** A stack that survives both filters of `listOutputsFor`. */
  predicate IsCandidate(query: string, stack: SB.Stack) {
    stack.status in AvailableStackStatuses && Matching(query, stack)
  }

  /** Stack `i` is what `sortedBy { it.stackName() }.firstOrNull()` picks:
      a candidate whose name is least among the candidates, and, the sort
      being stable, the earliest such. */
  predicate ChosenAt(query: string, ss: seq<SB.Stack>, i: int) {
    && 0 <= i < |ss|
    && IsCandidate(query, ss[i])
    && (forall j :: 0 <= j < |ss| && IsCandidate(query, ss[j]) ==> LessEq(ss[i].name, ss[j].name))
    && (forall j :: 0 <= j < i && IsCandidate(query, ss[j]) ==> !LessEq(ss[j].name, ss[i].name))
  }

  /** At most one stack is chosen. */
  lemma ChosenIsUnique(query: string, ss: seq<SB.Stack>, i: int, k: int)
    requires ChosenAt(query, ss, i) && ChosenAt(query, ss, k)
    ensures i == k
  {
  }

  /** The index of the chosen stack, if any candidate exists. */
  function Select(query: string, ss: seq<SB.Stack>): (r: Option<nat>)
    ensures r.None? <==> forall j :: 0 <= j < |ss| ==> !IsCandidate(query, ss[j])
    ensures r.Some? ==> ChosenAt(query, ss, r.value)
  {
    if |ss| == 0 then None
    else
      var rest := Select(query, ss[1..]);
      assert forall j :: 1 <= j < |ss| ==> ss[j] == ss[1..][j - 1];
      match rest
      case None =>
        if IsCandidate(query, ss[0]) then
          LessEqReflexive(ss[0].name);
          Some(0)
        else None
      case Some(k) =>
        if IsCandidate(query, ss[0]) && LessEq(ss[0].name, ss[k + 1].name) then
          SelectFirst(query, ss, k);
          Some(0)
        else
          SelectLater(query, ss, k);
          Some(k + 1)
  }

  lemma SelectFirst(query: string, ss: seq<SB.Stack>, k: nat)
    requires |ss| > 0 && ChosenAt(query, ss[1..], k)
    requires IsCandidate(query, ss[0]) && LessEq(ss[0].name, ss[k + 1].name)
    ensures ChosenAt(query, ss, 0)
  {
    forall j | 0 <= j < |ss| && IsCandidate(query, ss[j]) ensures LessEq(ss[0].name, ss[j].name) {
      if j > 0 {
        assert ss[j] == ss[1..][j - 1];
        LessEqTransitive(ss[0].name, ss[k + 1].name, ss[j].name);
      } else {
        LessEqReflexive(ss[0].name);
      }
    }
  }

  lemma SelectLater(query: string, ss: seq<SB.Stack>, k: nat)
    requires |ss| > 0 && ChosenAt(query, ss[1..], k)
    requires !(IsCandidate(query, ss[0]) && LessEq(ss[0].name, ss[k + 1].name))
    ensures ChosenAt(query, ss, k + 1)
  {
    assert ss[k + 1] == ss[1..][k];
    forall j | 0 <= j < |ss| && IsCandidate(query, ss[j]) ensures LessEq(ss[k + 1].name, ss[j].name) {
      if j > 0 {
        assert ss[j] == ss[1..][j - 1];
      } else {
        LessEqTotal(ss[0].name, ss[k + 1].name);
      }
    }
    forall j | 0 <= j < k + 1 && IsCandidate(query, ss[j]) ensures !LessEq(ss[j].name, ss[k + 1].name) {
      if j > 0 {
        assert ss[j] == ss[1..][j - 1];
      }
    }
  }

  /** `listOutputsFor(name)`: the outputs of the chosen stack, or "" when
      no stack qualifies. */
  function ListOutputsFor(query: string, stacks: seq<SB.Stack>): (r: string)
    ensures (forall j :: 0 <= j < |stacks| ==> !IsCandidate(query, stacks[j])) ==> r == ""
    ensures (exists j :: 0 <= j < |stacks| && IsCandidate(query, stacks[j])) ==>
              exists i :: ChosenAt(query, stacks, i) && r == Outputs.KeyValueText(stacks[i].outputs)
  {
    match Select(query, stacks)
    case None => ""
    case Some(i) => Outputs.KeyValueText(stacks[i].outputs)
  }

  /** A stack in a transitional or failed status is never chosen, even on an
      exact name match. */
  lemma UnavailableNeverChosen(query: string, ss: seq<SB.Stack>, i: int)
    requires 0 <= i < |ss| && ss[i].status !in AvailableStackStatuses
    ensures !ChosenAt(query, ss, i) && Select(query, ss) != Some(i)
  {
  }

  /** Between two candidates with the same name, the one listed first wins. */
  lemma TieGoesToFirst(query: string, a: SB.Stack, b: SB.Stack)
    requires IsCandidate(query, a) && IsCandidate(query, b) && a.name == b.name
    ensures ListOutputsFor(query, [a, b]) == Outputs.KeyValueText(a.outputs)
  {
    var ss := [a, b];
    LessEqReflexive(a.name);
    assert ChosenAt(query, ss, 0);
    var sel := Select(query, ss);
    assert sel.Some? by {
      assert IsCandidate(query, ss[0]);
    }
    ChosenIsUnique(query, ss, 0, sel.value);
  }
}

=== FILE: strings.dfy ===
/** The handful of Kotlin string operations the runner relies on, stated over
    `seq<char>`: prefix tests, `indexOf`, `substringBefore`/`substringAfter`,
    `contains`, `split`, `joinToString` and `compareTo`.
 */
module Strings {
  import opened Wrappers

  /** Kotlin `s.startsWith(p)`. */
  predicate StartsWith(s: string, p: string) {
    |p| <= |s| && s[..|p|] == p
  }

  /** `sub` occurs in `s` starting at index `i`. */
  predicate OccursAt(s: string, sub: string, i: int) {
    0 <= i && i + |sub| <= |s| && s[i..i + |sub|] == sub
  }

  /** Kotlin `s.contains(sub)` for a string argument. */
  predicate Contains(s: string, sub: string) {
    exists i :: 0 <= i <= |s| - |sub| && OccursAt(s, sub, i)
  }

  /** Kotlin `s.indexOf(c)`, with -1 modelled as None. */
  function IndexOf(s: string, c: char): (r: Option<nat>)
    ensures r.None? <==> c !in s
    ensures r.Some? ==> r.value < |s| && s[r.value] == c && c !in s[..r.value]
  {
    if |s| == 0 then None
    else if s[0] == c then Some(0)
    else
      match IndexOf(s[1..], c)
      case None => None
      case Some(i) =>
        assert s[..i + 1] == [s[0]] + s[1..][..i];
        Some(i + 1)
  }

  /** Kotlin `s.substringBefore(c)`: the whole string when `c` is missing. */
  function SubstringBefore(s: string, c: char): (r: string)
    ensures c !in r
    ensures c !in s ==> r == s
    ensures c in s ==> s == r + [c] + SubstringAfter(s, c)
  {
    match IndexOf(s, c)
    case None => s
    case Some(i) =>
      assert s == s[..i] + [c] + s[i + 1..];
      s[..i]
  }

  /** Kotlin `s.substringAfter(c)`: the whole string when `c` is missing. */
  function SubstringAfter(s: string, c: char): (r: string)
    ensures |r| <= |s|
    ensures c !in s ==> r == s
  {
    match IndexOf(s, c)
    case None => s
    case Some(i) => s[i + 1..]
  }

  /** Kotlin `parts.joinToString(sep)`: no separator before the first part nor
      after the last; the empty list joins to the empty string. */
  function Join(parts: seq<string>, sep: string): (r: string)
    ensures |parts| == 0 ==> r == ""
    ensures |parts| >= 1 ==> StartsWith(r, parts[0]) && |r| == TotalLength(parts) + (|parts| - 1) * |sep|
    ensures |parts| >= 2 ==> StartsWith(r, parts[0] + sep)
  {
    if |parts| == 0 then ""
    else if |parts| == 1 then parts[0]
    else parts[0] + sep + Join(parts[1..], sep)
  }

  /** The summed length of the parts. */
  function TotalLength(parts: seq<string>): nat {
    if |parts| == 0 then 0 else |parts[0]| + TotalLength(parts[1..])
  }

  /** Kotlin `s.split(c)`: every occurrence of `c` separates two parts, empty
      parts are kept, and the result is never empty. */
  function Split(s: string, c: char): (parts: seq<string>)
    ensures |parts| >= 1
    ensures forall k :: 0 <= k < |parts| ==> c !in parts[k]
    decreases |s|
  {
    match IndexOf(s, c)
    case None => [s]
    case Some(i) => [s[..i]] + Split(s[i + 1..], c)
  }

  /** Joining the parts of a split with the separator gives back the string. */
  lemma {:induction false} JoinSplit(s: string, c: char)
    ensures Join(Split(s, c), [c]) == s
    decreases |s|
  {
    match IndexOf(s, c)
    case None =>
    case Some(i) =>
      var rest := Split(s[i + 1..], c);
      JoinSplit(s[i + 1..], c);
      assert Split(s, c) == [s[..i]] + rest;
      assert Join(Split(s, c), [c]) == s[..i] + [c] + Join(rest, [c]);
      assert s == s[..i] + [c] + s[i + 1..];
  }

  /** Splitting a join of separator-free parts gives back the parts. */
  lemma {:induction false} SplitJoin(parts: seq<string>, c: char)
    requires |parts| >= 1
    requires forall k :: 0 <= k < |parts| ==> c !in parts[k]
    ensures Split(Join(parts, [c]), c) == parts
  {
    if |parts| == 1 {
      assert IndexOf(parts[0], c).None?;
    } else {
      var s := Join(parts, [c]);
      var tail := Join(parts[1..], [c]);
      assert s == parts[0] + [c] + tail;
      assert s[|parts[0]|] == c;
      assert s[..|parts[0]|] == parts[0];
      assert IndexOf(s, c) == Some(|parts[0]|);
      assert s[|parts[0]| + 1..] == tail;
      SplitJoin(parts[1..], c);
    }
  }

  /** Kotlin `a.compareTo(b) <= 0`: lexicographic by character, a proper
      prefix sorting first. */
  predicate LessEq(a: string, b: string) {
    if |a| == 0 then true
    else if |b| == 0 then false
    else if a[0] != b[0] then a[0] < b[0]
    else LessEq(a[1..], b[1..])
  }

  lemma {:induction false} LessEqReflexive(a: string)
    ensures LessEq(a, a)
  {
    if |a| > 0 {
      LessEqReflexive(a[1..]);
    }
  }

  lemma {:induction false} LessEqTotal(a: string, b: string)
    ensures LessEq(a, b) || LessEq(b, a)
  {
    if |a| > 0 && |b| > 0 && a[0] == b[0] {
      LessEqTotal(a[1..], b[1..]);
    }
  }

  lemma {:induction false} LessEqTransitive(a: string, b: string, c: string)
    requires LessEq(a, b) && LessEq(b, c)
    ensures LessEq(a, c)
  {
    if |a| > 0 && |b| > 0 && |c| > 0 && a[0] == b[0] && b[0] == c[0] {
      LessEqTransitive(a[1..], b[1..], c[1..]);
    }
  }

  lemma {:induction false} LessEqAntisymmetric(a: string, b: string)
    requires LessEq(a, b) && LessEq(b, a)
    ensures a == b
  {
    if |a| > 0 && |b| > 0 {
      LessEqAntisymmetric(a[1..], b[1..]);
      assert a == [a[0]] + a[1..];
      assert b == [b[0]] + b[1..];
    }
  }
}

=== FILE: wrappers.dfy ===
/** Failure-compatible wrappers used throughout the model.
    - Option<T> stands for a Kotlin nullable value (`T?`): None is `null`.
    - Result<T, E> stands for a computation that either returns a value or
      throws an exception carrying E.
 */
module Wrappers {

  datatype Option<+T> = None | Some(value: T) {

    /** The value, or the given default when null (Kotlin's `?:`). */
    function GetOr(default: T): T {
      match this
      case Some(v) => v
      case None => default
    }
  }

  datatype Result<+T, +E> = Success(value: T) | Failure(error: E) {

    predicate IsFailure() {
      Failure?
    }

    function PropagateFailure<U>(): Result<U, E>
      requires Failure?
    {
      Failure(error)
    }

    function Extract(): T
      requires Success?
    {
      value
    }
  }
}
